=== FILE: README.md ===
# Professional communication translator: a verified model of its core

The application rewrites a short Korean workplace message into a polished business message.
It does this with one or two calls to a text-generation service.

This project models its server-side core in Dafny:

- **The tier and quota gate** (`lib/premium.ts`).
  - Which keys grant the premium tier.
  - Which models each tier may use.
  - The daily quota table.
  - The per-model day counters kept in browser storage.
- **The request validators** (`lib/schema.ts`).
  - The transform request, with its defaults.
  - The analysis-result schema.
  - The feedback submission.
- **The prompt builder** (`lib/prompt.ts`).
  - The policy tables.
  - The eleven-part system prompt.
  - The plain, analysis and enhanced user prompts.
  - The guidance suffix of the enhanced system prompt.
- **The transform route** (`app/api/transform/route.ts`).
  - Validation, then model admission.
  - Routing to the two-stage "smart" path or the one-stage "direct" path.
  - The 0.7 confidence gate.
  - Every fallback.
- **The feedback route** (`app/api/feedback/route.ts`).
  - An append-only POST.
  - An admin GET that filters, sorts newest first, truncates and counts.

## How the model is put together

| file | module | contents |
|---|---|---|
| `wrappers.dfy` | `Wrappers` | `Option` |
| `enums.dfy` | `Enums` | The string enumerations, with their wire names and parsers |
| `text.dfy` | `Text` | Join, split on a character, whitespace trim, decimal rendering |
| `premium.dfy` | `Premium` | Tiers, the quota table, and the storage counters |
| `schema.dfy` | `Schema` | Raw and validated request types, the validators, the analysis object |
| `prompt.dfy` | `Prompt` | Policy tables and the prompt builders |
| `transform.dfy` | `Transform` | The transform route as a pure function of the body, the service oracle and the JSON parsers |
| `transform_facts.dfy` | `TransformFacts` | One lemma per branch of the transform route |
| `feedback.dfy` | `Feedback` | The feedback log, POST and GET |

Modelling choices:

- **The generation service is an oracle.** `Service = nat -> Outcome` gives the outcome of the n-th call a request makes: `Throw(message)` or `Output(text)`.
- **Every call is recorded.** A call holds its model and what its prompts are built from (`Prompts`). `SystemText` and `UserText` render the prompts.
- **`JSON.parse` is a pair of parser parameters.** They return `None` where the real parser throws.
- **An empty service output is read as `"{}"`**, as the route does.
- **A stage-1 result is an object whose fields may all be absent.** The route never applies the analysis-result schema.
- **Confidence is an `Option<real>`.** `undefined < 0.7` is false, so an absent confidence passes the gate.
- **Browser storage is a value.** `Storage` is a map from key to slot, plus an accessibility flag. The current date is a parameter.
- **The feedback file is a value.** It is `Missing` or a sequence of lines. Each line is a record, blank, or text that does not parse. Timestamps are integers, ordered as the route orders them.
- **Prompt wording is abstract.** The long instruction paragraphs are represented by short, distinct tag constants. The data strings are kept verbatim: the phrase bank, the labels, the length limits, and the "없음"/"보통" defaults. The model captures which paragraph is chosen and where it goes.

### Behaviours of the code worth knowing

- **Admission uses the client's flag.** The route takes the tier from the request's own `premium` flag; `getUserTier` is never called on the server. It never consults or updates the quota counters; they are used only in the browser.
- **An unparsable stage-1 output asks for confirmation.** It yields a fallback analysis with confidence 0.5. That is below 0.7, so the request stops for confirmation; it does not go on to stage 2.
- **Any exception in the smart path falls back to a direct transform.** This includes a stage-2 exception. Only an exception from the direct call becomes a 500.
- **An empty stage-1 output falls back to a direct transform.** It parses as `{}`, which has no confidence, so it passes the gate. It also has no `analysis` object, so building the enhanced system prompt throws. The request then falls back to a direct transform without any stage-2 call.
- **The confirmation response carries one fixed tip.**
- **The analysis-result schema is imported but never enforced** on the stage-1 output.
- **The request's `tonePreset` is validated but never reaches the prompt**, so every prompt uses the default preset.

## Model

| member | source | states |
|---|---|---|
| Enums.ParsePurpose | lib/schema.ts:5 | Accepts exactly the five purpose names, and the parsed value prints back as the input. |
| Enums.ParseIntent | lib/schema.ts:6 | Accepts exactly the seven intent names, and the parsed value prints back as the input. |
| Enums.ParseLanguage | lib/schema.ts:9 | Accepts exactly "ko" and "en". |
| Enums.ParseModel | lib/schema.ts:11 | Accepts exactly "gpt-4o-mini" and "gpt-4o". |
| Enums.ParseRating | lib/schema.ts:51 | Accepts exactly "satisfied" and "needs_improvement". |
| Enums.ParseFeedbackType | lib/schema.ts:52 | Accepts exactly the five feedback types. |
| Enums.ParseIntensity | lib/schema.ts:25 | Accepts exactly "high", "medium" and "low". |
| Enums.NamesRoundTrip | lib/schema.ts:5-12 | Every enumeration value's wire name parses back to that value, so the names are pairwise distinct. |
| Text.Split | lib/premium.ts:5 | Splitting on a character gives at least one piece, no piece contains the separator, and joining the pieces with it gives back the input. |
| Text.SplitJoin | lib/premium.ts:5 | Pieces without the separator survive joining and then splitting unchanged. |
| Text.Trim | lib/premium.ts:5 | The trimmed string occurs within the input, and everything before and after it there is whitespace. It neither starts nor ends with whitespace. It is empty iff the input is all whitespace. |
| Text.TrimIdempotent | lib/premium.ts:5 | Trimming twice is the same as trimming once. |
| Text.JoinEnds | lib/prompt.ts:175-187 | A joined string starts with its first part and ends with its last part. |
| Text.NatToString | lib/prompt.ts:311-312 | The decimal rendering of a number reads back as that number, uses only digits, and has no leading zero. |
| Premium.EnvKeys | lib/premium.ts:5 | The configured keys are the comma-separated pieces of the setting, each trimmed, in order. |
| Premium.ValidPremiumKeys | lib/premium.ts:4-12 | A key is accepted iff it is a configured key or one of the three demo keys. An unset setting leaves only the demo keys. |
| Premium.ValidatePremiumKey | lib/premium.ts:52-55 | True exactly when the key is one of the demo keys or one of the configured keys after trimming. |
| Premium.GetUserTier | lib/premium.ts:52-63 | The tier is premium iff the key is present, non-empty and accepted. |
| Premium.ConfiguredKeyGrantsPremium | lib/premium.ts:4-12 | Every non-blank piece of the comma-separated setting, once trimmed, grants the premium tier, whatever whitespace surrounds it. |
| Premium.EmptyKeyIsFree | lib/premium.ts:52-63 | With an empty key setting, the empty string validates as a key, yet an empty or absent key still gives the free tier. |
| Premium.CanUseModel | lib/premium.ts:66-74 | A tier may use the mini model always, and gpt-4o iff the tier is premium. |
| Premium.FindLimit | lib/premium.ts:77-80 | The result is a table entry for the model, and no earlier entry names that model, so it is the first match. None iff no entry names the model. |
| Premium.GetUsageLimit | lib/premium.ts:77-80 | Any result is an entry of the tier's table for the model. None exactly when the tier's table has no entry for it. |
| Premium.QuotaTable | lib/premium.ts:22-30 | Free gets 5/day of mini and no gpt-4o quota. Premium gets 50/day of mini and 10/day of gpt-4o. A quota exists exactly when the tier may use the model. |
| Premium.UsageKeyInjective | lib/premium.ts:83-85 | The two models' counters live under different storage keys. |
| Premium.UsageKey | lib/premium.ts:83-85 | The key is "pct-usage-" followed by the model's name; UsageKeyInjective shows that the two models' keys differ. |
| Premium.CheckUsageLimit | lib/premium.ts:88-127 | No quota gives (false, 0, 0). Otherwise the limit is the daily quota and use is allowed iff remaining > 0. Remaining is at most the limit when the stored count is non-negative, and above it when a readable stored count is negative. Unreadable storage reports the full quota. Readable storage reports max(0, daily - used today), where a count from another day is 0. |
| Premium.IncrementUsage | lib/premium.ts:130-153 | Writes today's date with the day's count plus one, so a count from another day restarts at 1. Unreadable storage is left as it was, and every other key is unchanged. |
| Premium.IncrementThenCheck | lib/premium.ts:88-153 | After one use, a same-day check reports one less remaining, floored at 0. |
| Premium.IncrementLeavesOtherModel | lib/premium.ts:83-153 | Using one model never changes the other model's quota check. |
| Premium.QuotaCountsUses | lib/premium.ts:99-149 | Starting from no count for today, n same-day uses leave max(0, daily - n) remaining, and use is still allowed iff n < daily. |
| Schema.ParsePoliteness | lib/schema.ts:7 | Accepts exactly the integers 1 to 3, keeping the value. |
| Schema.ParseTransformRequest | lib/schema.ts:3-13 | Accepts exactly the valid bodies. These have a text of 1 to 500 characters, and every present enum or politeness field is well-formed. Present fields are kept. Absent ones default to "default", "ko", false, "gpt-4o-mini" and false, while purpose, intent and politeness stay absent. |
| Schema.ParseUnparse | lib/schema.ts:3-13 | Every validated request with an accepted text length survives being written out in full and parsed back. |
| Schema.DefaultsApplied | lib/schema.ts:8-12 | A body giving only the text gets every default and no classification. |
| Schema.ParseFeedbackRequest | lib/schema.ts:40-55 | Accepts exactly the bodies that meet all of these: non-empty session id and both texts, a known rating, a known feedback type if present, a comment of at most 500 characters, and an embedded analysis that satisfies the analysis schema. The accepted fields are kept, including the purpose, intent, politeness and smart-mode settings. |
| Schema.ValidAnalysis | lib/schema.ts:18-35 | The analysis-result schema: known purpose and intent, integer politeness 1 to 3, confidence in [0, 1], an analysis with emotions, a known intensity, clues and reasoning, and alternatives that each give a reason. Transform.FallbackAnalysis satisfies it; TransformFacts.AnalysisSchemaNotEnforced shows the route never checks it. |
| Prompt.TonePresetRule | lib/prompt.ts:119-130 | "friendly", "firm" and "cautious" each select their own modifier. Every other value selects the default one. |
| Prompt.SystemParts | lib/prompt.ts:175-187 | The system prompt has eleven parts. |
| Prompt.MakeSystemPrompt | lib/prompt.ts:132-188 | The system prompt opens with the language's role sentence and closes with its few-shot anchors. |
| Prompt.SystemPromptForSettings | lib/prompt.ts:132-188 | For validated settings, the parts are, in order: the role; the politeness style rule, layout and intent hint for those exact values; the default preset; the intent's preferred and avoided phrases joined by ", " after their labels; the no-reasoning rule; and the language's invariants, guard and few-shot anchors. |
| Prompt.TablesAreInjective | lib/prompt.ts:9-22 | Different politeness levels, purposes and intents select different lines. |
| Prompt.UnknownKeysRenderEmpty | lib/prompt.ts:168-182 | An absent or unknown purpose, intent or politeness leaves its line empty, and its phrase lines show only their labels. |
| Prompt.LanguageSwitch | lib/prompt.ts:158-176 | Korean prompts use the Korean role, invariants, guard and few-shot paragraphs, and English prompts use the English ones. Switching the language changes the prompt. |
| Prompt.MakeUserPrompt | lib/prompt.ts:190-204 | The prompt is exactly the heading, the raw text verbatim, the security block, the transform schema and the output rules, each at its stated position, and nothing more. |
| Prompt.UserPromptKeepsText | lib/prompt.ts:190-204 | The raw text can be read back from the plain user prompt, so distinct texts give distinct prompts. |
| Prompt.UserPromptIgnoresContext | lib/prompt.ts:190-204 | The plain user prompt does not depend on the settings. |
| Prompt.MakeAnalysisUserPrompt | lib/prompt.ts:256-273 | The prompt is exactly the heading, the text verbatim, the security block, the analysis schema and the analysis requirements, each at its stated position, and nothing more. |
| Prompt.AnalysisPromptKeepsText | lib/prompt.ts:256-273 | The text can be read back from the analysis user prompt, so distinct texts give distinct prompts. |
| Prompt.EmotionsText | lib/prompt.ts:282 | Non-empty joined emotions are shown joined by ", ". Shows "없음" exactly when the emotions are absent or join to the empty string (or to "없음" itself). |
| Prompt.IntensityText | lib/prompt.ts:283 | A non-empty intensity is shown as given. Shows "보통" exactly when the intensity is absent or empty (or "보통" itself). It is never empty. |
| Prompt.MakeEnhancedSystemPrompt | lib/prompt.ts:276-294 | The enhanced system prompt is the plain system prompt for the same settings, followed exactly by the guidance block. |
| Prompt.GuidanceDefaults | lib/prompt.ts:279-291 | With no emotions and no intensity, the guidance shows "없음" and "보통" in their places. |
| Prompt.LengthLimit | lib/prompt.ts:297-303 | Messenger, memo and report each select their own length-limit line. Any other or absent purpose selects the standard line. |
| Prompt.Percent | lib/prompt.ts:312 | An absent confidence renders "NaN". A confidence c in [0, 1] renders as one to three digits whose value is the rounded percentage floor(100 c + 0.5). |
| Prompt.MakeEnhancedUserPrompt | lib/prompt.ts:296-328 | The text appears verbatim after the heading. The purpose's length-limit line comes right after the analysed-settings block. |
| Transform.DecodeData | app/api/transform/route.ts:199-209 | A parsable output (an empty output counts as "{}") is taken as parsed. Otherwise it becomes the trimmed raw text as the revision, with empty tips, subject and summary. |
| Transform.DirectTransform | app/api/transform/route.ts:238-308 | Makes exactly one call, with the plain prompts for the context. It throws iff that call throws, and otherwise returns the decoded output with the model's name. |
| Transform.FallbackAnalysis | app/api/transform/route.ts:128-141 | The analysis used when stage 1 does not parse has confidence 0.5 and satisfies the analysis schema. |
| Transform.SmartAttempt | app/api/transform/route.ts:64-222 | The smart path before its fallback makes the analysis call first, then at most one more call. Stopping for confirmation means no second call. |
| Transform.SmartTransform | app/api/transform/route.ts:56-235 | The smart path makes one to three calls, starting with the analysis call. Stopping for confirmation means exactly one call. If it fails, its last call was a direct transform with the caller's values or the defaults, and that call threw. |
| Transform.TransformPost | app/api/transform/route.ts:17-53 | A malformed body gives 500, an invalid one 400, and a model beyond the tier 403, each without any call. An admitted request makes one to three calls. The status is 200 iff the reply is a success. A 500 after admission means the last call threw. Stopping for confirmation means one call. |
| Transform.Route | app/api/transform/route.ts:43-48 | The smart path runs iff smart mode is asked for or a classification is missing; on it the analysis call comes first. Otherwise exactly one direct call is made. A failure means the last call threw. |
| TransformFacts.DirectPathMakesOneCall | app/api/transform/route.ts:238-308 | A fully classified, non-smart request makes exactly one call, with the plain prompts for its own settings. It answers 500 with the exception's message iff that call throws, and otherwise 200 with the model's name. |
| TransformFacts.SmartPathIffAnalysisFirst | app/api/transform/route.ts:43-48 | An admitted request's first call is the analysis call iff it asks for smart mode or leaves purpose, intent or politeness out. |
| TransformFacts.UnparsableAnalysisAsksForConfirmation | app/api/transform/route.ts:125-158 | An unparsable stage-1 output stops for confirmation after the single analysis call, returning the fallback analysis. |
| TransformFacts.LowConfidenceAsksForConfirmation | app/api/transform/route.ts:145-158 | Confidence below 0.7 stops for confirmation after the single analysis call. The reply has an empty revision, subject and summary, the one fixed tip, and the analysis. |
| TransformFacts.ConfidentAnalysisRunsStage2 | app/api/transform/route.ts:145-222 | Confidence of at least 0.7, or none at all, leads to exactly one stage-2 call with the enhanced prompts. The reply carries the analysis, no confirmation request, the model's name, and the decoded revision, tips, subject and summary. |
| TransformFacts.Stage2FailureFallsBackToDirect | app/api/transform/route.ts:173-234 | A stage-2 exception re-runs the request as a direct transform with the caller's values or the defaults. That is the third call, and it decides the status. |
| TransformFacts.Stage1FailureFallsBackToDirect | app/api/transform/route.ts:224-234 | A stage-1 exception falls back to exactly one direct call. |
| TransformFacts.EmptyAnalysisOutputFallsBackToDirect | app/api/transform/route.ts:125-234 | An empty stage-1 output passes the gate but has no analysis details. The request therefore falls back to a direct call without any stage-2 call. |
| TransformFacts.AnalysisSchemaNotEnforced | app/api/transform/route.ts:125-127 | A stage-1 object that violates the analysis schema still drives stage 2 and succeeds. |
| TransformFacts.UnparsableOutputIsWrapped | app/api/transform/route.ts:286-296 | An unparsable direct output is returned as the trimmed revision, with empty tips, subject and summary. |
| TransformFacts.PremiumModelNeedsPremiumFlag | app/api/transform/route.ts:28-36 | A request for gpt-4o without the premium flag is refused with 403 and the fixed message, before any call. |
| Feedback.ClientIp | app/api/feedback/route.ts:41 | The address is the forwarded-for header if non-empty, else the real-ip header if non-empty, else "unknown". It is never empty. |
| Feedback.BuildRecord | app/api/feedback/route.ts:36-42 | The stored record copies every submitted field and adds the server's id, time, user agent and address. |
| Feedback.ClientTimestampIgnored | app/api/feedback/route.ts:36-39 | The client's timestamp has no effect on the stored record. |
| Feedback.FeedbackPost | app/api/feedback/route.ts:24-68 | An invalid body gives 400 and a malformed one 500, both with the log unchanged. A valid body gives 200 with its id and appends exactly one record after the unchanged existing lines. |
| Feedback.Records | app/api/feedback/route.ts:101-110 | A record is listed iff the log holds a line that parses to it. There are never more records than lines. |
| Feedback.FilterRating | app/api/feedback/route.ts:113-115 | With a non-empty rating filter, exactly the records with that rating remain, each as many times as in the input. Otherwise all of them remain. |
| Feedback.FilterRatingAppend | app/api/feedback/route.ts:113-115 | Filtering a concatenation is the concatenation of the filtered parts, so the filter keeps log order. |
| Feedback.Insert | app/api/feedback/route.ts:118-119 | Inserting into a newest-first list keeps it newest first and adds exactly the new record. |
| Feedback.SortByTimestamp | app/api/feedback/route.ts:118-119 | The result is newest first and a permutation of the input. |
| Feedback.InsertKeepsTies | app/api/feedback/route.ts:118-119 | Insertion keeps the relative order of the records with any given timestamp, placing the new one first among its equals. |
| Feedback.SortIsStable | app/api/feedback/route.ts:118-119 | The sort is stable: for every timestamp, the records carrying it keep their log order. |
| Feedback.RatingCountsBounded | app/api/feedback/route.ts:131-134 | The two rating counts together never exceed the number of records. |
| Feedback.ListLines | app/api/feedback/route.ts:100-143 | The listing holds min(limit, number of matching records) records, newest first, drawn without repetition from the matching records. No matching record left out is newer than a listed one. Among records with equal timestamps, the ones logged first are listed, in log order. Every listed record comes from a parsed line and has the filter's rating. The total counts the parsed records and is at most the number of lines. Each rating count is the number of parsed records with that rating, and the two sum to at most the total. |
| Feedback.CutKeepsFirstTies | app/api/feedback/route.ts:118-120 | After the stable sort and the cut, the kept records with any one timestamp are the first records with that timestamp in the input, in input order. |
| Feedback.Newest | app/api/feedback/route.ts:118-120 | The first `limit` records of the stable newest-first sort: min(limit, n) records, newest first, a sub-multiset of the input, nothing left out newer than anything kept, and for each timestamp the earliest input records in input order. |
| Feedback.NewestUnderLargeLimit | app/api/feedback/route.ts:118-120 | A limit covering every record keeps all of them. |
| Feedback.TruncationKeepsNewest | app/api/feedback/route.ts:118-120 | Cutting a newest-first list to its first `n` records keeps a sub-multiset, and every record dropped is no newer than every record kept. |
| Feedback.FeedbackGet | app/api/feedback/route.ts:71-152 | Without the admin key the answer is 403 with no listing. A missing log gives an empty listing with zero counts. Otherwise the answer is 200 with the listing of the log's lines for the query. |
| Feedback.DeniedQueryReadsNothing | app/api/feedback/route.ts:79-84 | A refused query gives the same answer whatever the log holds. |
| Feedback.StatsIgnoreFilter | app/api/feedback/route.ts:123-140 | The total and the rating counts do not depend on the filter or the limit. |
| Feedback.JunkLinesIgnored | app/api/feedback/route.ts:102-110 | A blank or unparsable line changes neither the records nor the listing. |
| Feedback.RecordsAppend | app/api/feedback/route.ts:101-110 | Appending a record line adds that record as the last parsed record. |
| Feedback.AppendedRecordIsListed | app/api/feedback/route.ts:113-120 | An appended record is listed by a query filtered on its rating whose limit covers all such records. |
| Feedback.PostAppendsRecord | app/api/feedback/route.ts:36-49 | A valid submission leaves the log as the old lines followed by the new record. |
| Feedback.SubmittedFeedbackIsListed | app/api/feedback/route.ts:36-120 | Round trip: after a valid POST, an authorised GET filtered on the submission's rating with a large enough limit lists the stored record. |

## Left out

- **The text-generation client.** Its transport, the JSON-schema response format, and logging and timing are left out. The client is replaced by the outcome oracle, so token usage is not modelled.
- **Extra keys in service outputs.** A parsed service output holds only the keys of the response schema the route requests (app/api/transform/route.ts:118, 192 and 279, each `additionalProperties: false` with `strict: true`). An output carrying other keys is not modelled. The source would spread such keys into the reply: through the direct path's `...data` every extra key reaches the client, so an output with `needsConfirmation` would ask for confirmation after two or three calls, and the stage-1 object is returned as `analysis` with its extra keys. The promise that a confirmation reply follows exactly one call rests on this restriction.
- **`JSON.parse` and `JSON.stringify`.** Parsing is a pair of parser parameters. A JSON value that parses to `null`, a primitive or an array is treated like an object with every field absent. Spreading such values into the response is not modelled.
- **Field types.** A field of the wrong JSON type in a stage-1 object is not modelled, so confidence is always a number when present. Object keys inherited from the prototype are not modelled. The raw transform and feedback bodies hold each field as absent or as a value of the expected type, so a field that is `null` or of the wrong type is not modelled; the source rejects those bodies with a 400 (app/api/transform/route.ts:20-23, app/api/feedback/route.ts:27-34). Stage-1 politeness is read as an integer, so a fractional value is not modelled.
- **zod internals.** Unknown keys in a body are dropped, which the raw request types reflect by having no such fields.
- **String lengths.** They are counted in Unicode scalar values. The source counts UTF-16 code units, which differ for characters outside the Basic Multilingual Plane.
- Text.IsWhitespace: covers the ASCII whitespace characters, the vertical tab, the form feed, the no-break space, the byte-order mark and the line and paragraph separators. It does not cover the other Unicode space separators that `String.prototype.trim` also removes.
- Prompt.Percent: uses exact real arithmetic, `floor(100 c + 0.5)`, rather than floating-point `Math.round`.
- **Prompt wording.** The long prompt paragraphs (role, style rules, layouts, intent hints, presets, invariants, guards, few-shot anchors, schemas and instruction blocks) are short tag constants. Their wording is not modelled; only their selection and placement are.
- **The quota table's extras.** The `hourly` figures are declared in the quota table but never enforced, and the model only carries them. `COST_INFO`, `MODEL_INFO`'s display fields and `resetUsageForDev` are not modelled.
- Premium.CheckUsageLimit: the stored count is an integer, possibly negative, so a fractional count or a string count (which JavaScript would coerce or concatenate) is not modelled.
- Feedback.ListLines: a line that parses to a truthy value that is not a feedback record (`{}`, `1`, `[]`) counts as garbage here. In the source it counts towards the total and is listed when no rating filter is given.
- **Storage failures.** Reading the storage and writing it are modelled as failing together, through `Unreadable`. A `setItem` that fails after a successful read is not modelled.
- **The current date and the record timestamp.** `new Date()` is a parameter, and so is the timestamp. The stored timestamp is an integer, where the source stores an ISO string and sorts by the time it parses to.
- **The feedback id.** It is a parameter, because it comes from `Date.now()` and `Math.random()`.
- **The `limit` query parameter.** It is a natural number, so the `parseInt` results `NaN` and negative values are not modelled.
- **File-system errors.** Errors when creating the directory or reading and writing the log are not modelled; in the source they make a route answer 500. A malformed POST body is modelled with that 500.
- **The log file's lines.** They are modelled as already split into lines, so how a final line without a newline is handled is not modelled.
- **The admin key.** It is a parameter, as is the `PREMIUM_KEYS` setting.
- **The React interface.** It is not part of this model, and this includes the browser-side calls to the quota functions.
- **Quota enforcement.** The transform route does not check or update the quota. That is not a gap in the model: the route simply never uses those functions.

=== FILE: enums.dfy ===
/** The closed string enumerations of the application, each with its wire name and a parser. */
module Enums {
  import opened Wrappers

  datatype Purpose = Email | Report | Memo | Messenger | Minutes
  datatype Intent = Request | Decline | Rebuttal | Apology | Persuade | Notice | Escalation
  datatype Language = Ko | En
  datatype Model = Mini | Gpt4o
  datatype Tier = Free | Premium
  datatype Rating = Satisfied | NeedsImprovement
  datatype FeedbackType = Tone | Accuracy | Naturalness | Length | Other
  datatype Intensity = High | Medium | Low

  /** Politeness levels 1..3. */
  type Politeness = p: int | 1 <= p <= 3 witness 1

  function PurposeName(p: Purpose): string {
    match p
    case Email => "email"
    case Report => "report"
    case Memo => "memo"
    case Messenger => "messenger"
    case Minutes => "minutes"
  }

  function ParsePurpose(s: string): (r: Option<Purpose>)
    ensures r.Some? ==> PurposeName(r.value) == s
    ensures r.None? ==> forall p: Purpose :: PurposeName(p) != s
  {
    if s == "email" then Some(Email)
    else if s == "report" then Some(Report)
    else if s == "memo" then Some(Memo)
    else if s == "messenger" then Some(Messenger)
    else if s == "minutes" then Some(Minutes)
    else None
  }

  function IntentName(i: Intent): string {
    match i
    case Request => "request"
    case Decline => "decline"
    case Rebuttal => "rebuttal"
    case Apology => "apology"
    case Persuade => "persuade"
    case Notice => "notice"
    case Escalation => "escalation"
  }

  function ParseIntent(s: string): (r: Option<Intent>)
    ensures r.Some? ==> IntentName(r.value) == s
    ensures r.None? ==> forall i: Intent :: IntentName(i) != s
  {
    if s == "request" then Some(Request)
    else if s == "decline" then Some(Decline)
    else if s == "rebuttal" then Some(Rebuttal)
    else if s == "apology" then Some(Apology)
    else if s == "persuade" then Some(Persuade)
    else if s == "notice" then Some(Notice)
    else if s == "escalation" then Some(Escalation)
    else None
  }

  function LanguageName(l: Language): string {
    match l
    case Ko => "ko"
    case En => "en"
  }

  function ParseLanguage(s: string): (r: Option<Language>)
    ensures r.Some? ==> LanguageName(r.value) == s
    ensures r.None? ==> forall l: Language :: LanguageName(l) != s
  {
    if s == "ko" then Some(Ko) else if s == "en" then Some(En) else None
  }

  function ModelName(m: Model): string {
    match m
    case Mini => "gpt-4o-mini"
    case Gpt4o => "gpt-4o"
  }

  function ParseModel(s: string): (r: Option<Model>)
    ensures r.Some? ==> ModelName(r.value) == s
    ensures r.None? ==> forall m: Model :: ModelName(m) != s
  {
    if s == "gpt-4o-mini" then Some(Mini) else if s == "gpt-4o" then Some(Gpt4o) else None
  }

  function RatingName(r: Rating): string {
    match r
    case Satisfied => "satisfied"
    case NeedsImprovement => "needs_improvement"
  }

  function ParseRating(s: string): (r: Option<Rating>)
    ensures r.Some? ==> RatingName(r.value) == s
    ensures r.None? ==> forall x: Rating :: RatingName(x) != s
  {
    if s == "satisfied" then Some(Satisfied)
    else if s == "needs_improvement" then Some(NeedsImprovement)
    else None
  }

  function FeedbackTypeName(t: FeedbackType): string {
    match t
    case Tone => "tone"
    case Accuracy => "accuracy"
    case Naturalness => "naturalness"
    case Length => "length"
    case Other => "other"
  }

  function ParseFeedbackType(s: string): (r: Option<FeedbackType>)
    ensures r.Some? ==> FeedbackTypeName(r.value) == s
    ensures r.None? ==> forall t: FeedbackType :: FeedbackTypeName(t) != s
  {
    if s == "tone" then Some(Tone)
    else if s == "accuracy" then Some(Accuracy)
    else if s == "naturalness" then Some(Naturalness)
    else if s == "length" then Some(Length)
    else if s == "other" then Some(Other)
    else None
  }

  function IntensityName(i: Intensity): string {
    match i
    case High => "high"
    case Medium => "medium"
    case Low => "low"
  }

  function ParseIntensity(s: string): (r: Option<Intensity>)
    ensures r.Some? ==> IntensityName(r.value) == s
    ensures r.None? ==> forall i: Intensity :: IntensityName(i) != s
  {
    if s == "high" then Some(High) else if s == "medium" then Some(Medium)
    else if s == "low" then Some(Low) else None
  }

  /** Every wire name parses back to its constructor: the names are pairwise distinct. */
  lemma NamesRoundTrip()
    ensures forall p: Purpose :: ParsePurpose(PurposeName(p)) == Some(p)
    ensures forall i: Intent :: ParseIntent(IntentName(i)) == Some(i)
    ensures forall l: Language :: ParseLanguage(LanguageName(l)) == Some(l)
    ensures forall m: Model :: ParseModel(ModelName(m)) == Some(m)
    ensures forall r: Rating :: ParseRating(RatingName(r)) == Some(r)
    ensures forall t: FeedbackType :: ParseFeedbackType(FeedbackTypeName(t)) == Some(t)
    ensures forall i: Intensity :: ParseIntensity(IntensityName(i)) == Some(i)
  {
  }
}

=== FILE: feedback.dfy ===
/** The feedback log: POST validates a submission and appends one record to a line-per-record log;
    the admin GET reads the log back, drops lines that are blank or do not parse, filters by rating,
    sorts newest first, truncates to the limit, and counts ratings over the whole log. */
module Feedback {
  import opened Wrappers
  import opened Enums
  import opened Schema

  /** The request headers the handler reads. */
  datatype Headers = Headers(userAgent: Option<string>, forwardedFor: Option<string>, realIp: Option<string>)

  /** One stored record: the validated submission plus the server-side fields.
      `rating` is whatever the stored line holds. */
  datatype FeedbackRecord = FeedbackRecord(
    sessionId: string,
    originalText: string,
    transformedText: string,
    transformSettings: Settings,
    rating: string,
    feedbackType: Option<FeedbackType>,
    comment: Option<string>,
    feedbackId: string,
    timestamp: int,
    userAgent: string,
    ip: string)

  /** A line of the log file: a record, a blank line, or text that does not parse. */
  datatype Line = Entry(record: FeedbackRecord) | Blank | Garbage

  /** The log file, which does not exist until the first submission. */
  datatype Log = Missing | Present(lines: seq<Line>)

  function Lines(log: Log): seq<Line> {
    if log.Present? then log.lines else []
  }

  const InvalidFeedbackError := "잘못된 피드백 요청입니다."
  const SaveError := "피드백 저장 중 오류가 발생했습니다."
  const AccessDeniedError := "접근 권한이 없습니다."
  const DefaultLimit: nat := 50

  /** `x-forwarded-for || x-real-ip || "unknown"`: the first non-empty one. */
  function ClientIp(h: Headers): (ip: string)
    ensures ip != ""
    ensures h.forwardedFor.Some? && h.forwardedFor.value != "" ==> ip == h.forwardedFor.value
    ensures (h.forwardedFor.None? || h.forwardedFor.value == "") && h.realIp.Some? && h.realIp.value != "" ==>
      ip == h.realIp.value
    ensures (h.forwardedFor.None? || h.forwardedFor.value == "") && (h.realIp.None? || h.realIp.value == "") ==>
      ip == "unknown"
  {
    if h.forwardedFor.Some? && h.forwardedFor.value != "" then h.forwardedFor.value
    else if h.realIp.Some? && h.realIp.value != "" then h.realIp.value
    else "unknown"
  }

  /** The stored record: the submission's fields, with the server's id, time, user agent and address.
      The client's own timestamp is replaced by the server's. */
  function BuildRecord(req: FeedbackRequest, id: string, now: int, h: Headers): (rec: FeedbackRecord)
    ensures rec.feedbackId == id && rec.timestamp == now
    ensures rec.sessionId == req.sessionId && rec.originalText == req.originalText
    ensures rec.transformedText == req.transformedText && rec.transformSettings == req.transformSettings
    ensures rec.rating == RatingName(req.rating) && rec.feedbackType == req.feedbackType && rec.comment == req.comment
    ensures rec.userAgent == h.userAgent.GetOr("") && rec.ip == ClientIp(h)
  {
    FeedbackRecord(req.sessionId, req.originalText, req.transformedText, req.transformSettings,
                   RatingName(req.rating), req.feedbackType, req.comment, id, now, h.userAgent.GetOr(""), ClientIp(h))
  }

  /** The client-supplied timestamp has no effect on what is stored. */
  lemma ClientTimestampIgnored(req: FeedbackRequest, t: Option<string>, id: string, now: int, h: Headers)
    ensures BuildRecord(req.(timestamp := t), id, now, h) == BuildRecord(req, id, now, h)
  {
  }

  datatype PostReply = Stored(feedbackId: string) | Refused(error: string)
  datatype PostResult = PostResult(status: nat, reply: PostReply, log: Log)

  /** POST /api/feedback: an invalid body is refused with 400 and the log untouched; a valid one
      is appended as exactly one new record after all existing lines. */
  function FeedbackPost(log: Log, body: Body<RawFeedbackRequest>, h: Headers, id: string, now: int): (r: PostResult)
    ensures body.Malformed? ==> r == PostResult(500, Refused(SaveError), log)
    ensures body.Json? && ParseFeedbackRequest(body.value).None? ==> r == PostResult(400, Refused(InvalidFeedbackError), log)
    ensures body.Json? && ParseFeedbackRequest(body.value).Some? ==>
      && r.status == 200 && r.reply == Stored(id)
      && r.log.Present?
      && |r.log.lines| == |Lines(log)| + 1
      && r.log.lines[..|Lines(log)|] == Lines(log)
      && r.log.lines[|Lines(log)|] == Entry(BuildRecord(ParseFeedbackRequest(body.value).value, id, now, h))
  {
    if body.Malformed? then PostResult(500, Refused(SaveError), log)
    else
      match ParseFeedbackRequest(body.value)
      case None => PostResult(400, Refused(InvalidFeedbackError), log)
      case Some(req) =>
        var lines := Lines(log) + [Entry(BuildRecord(req, id, now, h))];
        assert lines[..|Lines(log)|] == Lines(log);
        PostResult(200, Stored(id), Present(lines))
  }

  /** The records of the lines that parse, in file order. */
  function Records(lines: seq<Line>): (recs: seq<FeedbackRecord>)
    ensures |recs| <= |lines|
    ensures forall x :: x in recs <==> Entry(x) in lines
  {
    if |lines| == 0 then []
    else
      var init := lines[..|lines| - 1];
      var last := lines[|lines| - 1];
      assert lines == init + [last];
      Records(init) + (if last.Entry? then [last.record] else [])
  }

  /** A rating filter applies only when given and non-empty. */
  predicate Filtering(rating: Option<string>) {
    rating.Some? && rating.value != ""
  }

  /** The records with the requested rating, in order; all of them without a filter. */
  function FilterRating(recs: seq<FeedbackRecord>, rating: Option<string>): (r: seq<FeedbackRecord>)
    ensures |r| <= |recs|
    ensures !Filtering(rating) ==> r == recs
    ensures Filtering(rating) ==> forall x :: x in r <==> x in recs && x.rating == rating.value
    ensures Filtering(rating) ==> forall x :: multiset(r)[x] == if x.rating == rating.value then multiset(recs)[x] else 0
  {
    if !Filtering(rating) then recs
    else if |recs| == 0 then []
    else
      var rest := FilterRating(recs[1..], rating);
      assert recs == [recs[0]] + recs[1..];
      if recs[0].rating == rating.value then [recs[0]] + rest else rest
  }

  /** Filtering a concatenation filters each part in place, so the filter keeps log order. */
  lemma {:induction false} FilterRatingAppend(a: seq<FeedbackRecord>, b: seq<FeedbackRecord>, rating: Option<string>)
    ensures FilterRating(a + b, rating) == FilterRating(a, rating) + FilterRating(b, rating)
  {
    if Filtering(rating) && |a| > 0 {
      assert (a + b)[1..] == a[1..] + b;
      FilterRatingAppend(a[1..], b, rating);
    } else if Filtering(rating) {
      assert a + b == b;
    }
  }

  /** Newest first. */
  predicate SortedDesc(s: seq<FeedbackRecord>) {
    forall i, j :: 0 <= i < j < |s| ==> s[i].timestamp >= s[j].timestamp
  }

  /** Inserts `x` before the first record that is not newer than it. */
  function Insert(x: FeedbackRecord, s: seq<FeedbackRecord>): (r: seq<FeedbackRecord>)
    requires SortedDesc(s)
    ensures |r| == |s| + 1
    ensures r[0] == x || (|s| > 0 && r[0] == s[0])
    ensures SortedDesc(r)
    ensures multiset(r) == multiset(s) + multiset{x}
  {
    if |s| == 0 || x.timestamp >= s[0].timestamp then [x] + s
    else
      var t := Insert(x, s[1..]);
      assert s == [s[0]] + s[1..];
      assert t[0].timestamp <= s[0].timestamp;
      [s[0]] + t
  }

  /** The stable sort by timestamp, newest first, that `Array.prototype.sort` performs with the
      comparator `b.timestamp - a.timestamp`. */
  function SortByTimestamp(s: seq<FeedbackRecord>): (r: seq<FeedbackRecord>)
    ensures SortedDesc(r)
    ensures multiset(r) == multiset(s)
    ensures |r| == |s|
  {
    if |s| == 0 then []
    else
      assert s == [s[0]] + s[1..];
      Insert(s[0], SortByTimestamp(s[1..]))
  }

  /** The records carrying timestamp `t`, in order. */
  function WithTimestamp(s: seq<FeedbackRecord>, t: int): seq<FeedbackRecord> {
    if |s| == 0 then [] else (if s[0].timestamp == t then [s[0]] else []) + WithTimestamp(s[1..], t)
  }

  lemma {:induction false} InsertKeepsTies(x: FeedbackRecord, s: seq<FeedbackRecord>, t: int)
    requires SortedDesc(s)
    ensures WithTimestamp(Insert(x, s), t) ==
      (if x.timestamp == t then [x] + WithTimestamp(s, t) else WithTimestamp(s, t))
  {
    if |s| == 0 || x.timestamp >= s[0].timestamp {
      assert ([x] + s)[1..] == s;
    } else {
      var t' := Insert(x, s[1..]);
      InsertKeepsTies(x, s[1..], t);
      assert ([s[0]] + t')[1..] == t';
    }
  }

  /** The sort is stable: records with equal timestamps keep their order in the log. */
  lemma {:induction false} SortIsStable(s: seq<FeedbackRecord>, t: int)
    ensures WithTimestamp(SortByTimestamp(s), t) == WithTimestamp(s, t)
  {
    if |s| > 0 {
      SortIsStable(s[1..], t);
      InsertKeepsTies(s[0], SortByTimestamp(s[1..]), t);
    }
  }

  lemma {:induction false} WithTimestampAppend(a: seq<FeedbackRecord>, b: seq<FeedbackRecord>, t: int)
    ensures WithTimestamp(a + b, t) == WithTimestamp(a, t) + WithTimestamp(b, t)
  {
    if |a| == 0 {
      assert a + b == b;
    } else {
      assert (a + b)[1..] == a[1..] + b;
      WithTimestampAppend(a[1..], b, t);
    }
  }

  /** Cutting the sorted list keeps, for each timestamp, the records that came first in the input,
      in input order. */
  lemma {:induction false} CutKeepsFirstTies(s: seq<FeedbackRecord>, n: nat)
    requires n <= |s|
    ensures forall t :: WithTimestamp(SortByTimestamp(s)[..n], t) <= WithTimestamp(s, t)
  {
    var sorted := SortByTimestamp(s);
    forall t
      ensures WithTimestamp(sorted[..n], t) <= WithTimestamp(s, t)
    {
      assert sorted == sorted[..n] + sorted[n..];
      WithTimestampAppend(sorted[..n], sorted[n..], t);
      SortIsStable(s, t);
    }
  }

  /** How many records carry the rating. */
  function CountRating(recs: seq<FeedbackRecord>, rating: string): nat {
    if |recs| == 0 then 0 else (if recs[0].rating == rating then 1 else 0) + CountRating(recs[1..], rating)
  }

  /** A record counts towards at most one of the two ratings. */
  lemma {:induction false} RatingCountsBounded(recs: seq<FeedbackRecord>)
    ensures CountRating(recs, "satisfied") + CountRating(recs, "needs_improvement") <= |recs|
  {
    if |recs| > 0 {
      RatingCountsBounded(recs[1..]);
    }
  }

  datatype Query = Query(limit: Option<nat>, rating: Option<string>, key: Option<string>)
  datatype Listing = Listing(feedbacks: seq<FeedbackRecord>, total: nat, satisfied: nat, needsImprovement: nat)
  datatype GetResult = GetResult(status: nat, listing: Option<Listing>)

  /** `key !== ADMIN_KEY` rejects; an absent key never equals an unset secret. */
  predicate Authorised(key: Option<string>, adminKey: Option<string>) {
    key.Some? && adminKey.Some? && key.value == adminKey.value
  }

  /** The parsed records of the log that pass the query's rating filter, in log order. */
  function Matching(lines: seq<Line>, q: Query): seq<FeedbackRecord> {
    FilterRating(Records(lines), q.rating)
  }

  function Min(a: nat, b: nat): nat {
    if a < b then a else b
  }

  /** Cutting a newest-first list leaves out nothing newer than what it keeps. */
  lemma {:induction false} TruncationKeepsNewest(s: seq<FeedbackRecord>, n: nat)
    requires SortedDesc(s) && n <= |s|
    ensures multiset(s[..n]) <= multiset(s)
    ensures forall x, y :: x in s[..n] && y in multiset(s) - multiset(s[..n]) ==> y.timestamp <= x.timestamp
  {
    assert s == s[..n] + s[n..];
    assert multiset(s) == multiset(s[..n]) + multiset(s[n..]);
    forall x, y | x in s[..n] && y in multiset(s) - multiset(s[..n])
      ensures y.timestamp <= x.timestamp
    {
      assert y in multiset(s[n..]);
      var i :| 0 <= i < n && s[i] == x;
      var j :| 0 <= j < |s[n..]| && s[n..][j] == y;
      assert s[n + j] == y;
    }
  }

  /** The first `limit` records of the stable newest-first sort of `matches`: nothing left out is
      newer than what is kept, and among records with equal timestamps the earliest are kept, in
      their original order. */
  function Newest(matches: seq<FeedbackRecord>, limit: nat): (shown: seq<FeedbackRecord>)
    ensures |shown| == Min(limit, |matches|)
    ensures SortedDesc(shown)
    ensures multiset(shown) <= multiset(matches)
    ensures forall x, y :: x in shown && y in multiset(matches) - multiset(shown) ==> y.timestamp <= x.timestamp
    ensures forall t :: WithTimestamp(shown, t) <= WithTimestamp(matches, t)
    ensures forall x :: x in shown ==> x in matches
  {
    var sorted := SortByTimestamp(matches);
    var n := Min(limit, |sorted|);
    TruncationKeepsNewest(sorted, n);
    CutKeepsFirstTies(matches, n);
    assert forall x :: x in sorted[..n] ==> x in multiset(sorted);
    sorted[..n]
  }

  /** A limit covering every record keeps them all. */
  lemma {:induction false} NewestUnderLargeLimit(matches: seq<FeedbackRecord>, limit: nat)
    requires limit >= |matches|
    ensures multiset(Newest(matches, limit)) == multiset(matches)
  {
    var shown := Newest(matches, limit);
    var rest := multiset(matches) - multiset(shown);
    assert multiset(matches) == multiset(shown) + rest;
    assert |rest| == 0;
  }

  /** The listing of the lines of an existing log: the newest `limit` matching records, newest
      first, records with equal timestamps in log order and the earliest logged kept, and the
      total and rating counts over every parsed record. */
  function ListLines(lines: seq<Line>, q: Query): (l: Listing)
    ensures l.feedbacks == Newest(Matching(lines, q), q.limit.GetOr(DefaultLimit))
    ensures |l.feedbacks| == Min(q.limit.GetOr(DefaultLimit), |Matching(lines, q)|)
    ensures SortedDesc(l.feedbacks)
    ensures multiset(l.feedbacks) <= multiset(Matching(lines, q))
    ensures forall x, y :: x in l.feedbacks && y in multiset(Matching(lines, q)) - multiset(l.feedbacks) ==>
      y.timestamp <= x.timestamp
    ensures forall t :: WithTimestamp(l.feedbacks, t) <= WithTimestamp(Matching(lines, q), t)
    ensures forall x :: x in l.feedbacks ==> Entry(x) in lines
    ensures Filtering(q.rating) ==> forall x :: x in l.feedbacks ==> x.rating == q.rating.value
    ensures l.total == |Records(lines)| && l.total <= |lines|
    ensures l.satisfied == CountRating(Records(lines), "satisfied")
    ensures l.needsImprovement == CountRating(Records(lines), "needs_improvement")
    ensures l.satisfied + l.needsImprovement <= l.total
  {
    var all := Records(lines);
    var shown := Newest(Matching(lines, q), q.limit.GetOr(DefaultLimit));
    RatingCountsBounded(all);
    Listing(shown, |all|, CountRating(all, "satisfied"), CountRating(all, "needs_improvement"))
  }

  /** GET /api/feedback: 403 without the admin key; an empty listing when there is no log;
      otherwise at most `limit` parsed records matching the filter, newest first, with the total
      and the rating counts taken over the whole log. */
  function FeedbackGet(log: Log, q: Query, adminKey: Option<string>): (r: GetResult)
    ensures !Authorised(q.key, adminKey) ==> r == GetResult(403, None)
    ensures Authorised(q.key, adminKey) && log.Missing? ==> r == GetResult(200, Some(Listing([], 0, 0, 0)))
    ensures Authorised(q.key, adminKey) ==> r.status == 200 && r.listing.Some?
    ensures Authorised(q.key, adminKey) && log.Present? ==> r.listing == Some(ListLines(log.lines, q))
  {
    if !Authorised(q.key, adminKey) then GetResult(403, None)
    else if log.Missing? then GetResult(200, Some(Listing([], 0, 0, 0)))
    else GetResult(200, Some(ListLines(log.lines, q)))
  }

  /** A refused query does not depend on the log at all. */
  lemma DeniedQueryReadsNothing(log1: Log, log2: Log, q: Query, adminKey: Option<string>)
    requires !Authorised(q.key, adminKey)
    ensures FeedbackGet(log1, q, adminKey) == FeedbackGet(log2, q, adminKey)
  {
  }

  /** The total and the rating counts are the same whatever filter and limit are asked for. */
  lemma StatsIgnoreFilter(lines: seq<Line>, q1: Query, q2: Query)
    ensures ListLines(lines, q1).total == ListLines(lines, q2).total
    ensures ListLines(lines, q1).satisfied == ListLines(lines, q2).satisfied
    ensures ListLines(lines, q1).needsImprovement == ListLines(lines, q2).needsImprovement
  {
  }

  /** Blank and unparseable lines are not records: adding them changes no count or listing. */
  lemma {:induction false} JunkLinesIgnored(lines: seq<Line>, junk: Line, q: Query)
    requires !junk.Entry?
    ensures Records(lines + [junk]) == Records(lines)
    ensures ListLines(lines + [junk], q) == ListLines(lines, q)
  {
    assert (lines + [junk])[..|lines|] == lines;
  }

  /** Appending a record adds it as the last parsed record. */
  lemma {:induction false} RecordsAppend(lines: seq<Line>, rec: FeedbackRecord)
    ensures Records(lines + [Entry(rec)]) == Records(lines) + [rec]
  {
    assert (lines + [Entry(rec)])[..|lines|] == lines;
  }

  /** A record appended to the log is listed by a query filtered by its rating whose limit covers
      every record with that rating. */
  lemma {:induction false} AppendedRecordIsListed(lines: seq<Line>, rec: FeedbackRecord, limit: nat, key: Option<string>)
    requires limit >= |FilterRating(Records(lines) + [rec], Some(rec.rating))|
    ensures rec in ListLines(lines + [Entry(rec)], Query(Some(limit), Some(rec.rating), key)).feedbacks
  {
    var q := Query(Some(limit), Some(rec.rating), key);
    var after := lines + [Entry(rec)];
    RecordsAppend(lines, rec);
    var m := Matching(after, q);
    assert rec in Records(lines) + [rec];
    NewestUnderLargeLimit(m, limit);
  }

  /** A valid submission leaves the log as the old lines followed by the new record. */
  lemma PostAppendsRecord(log: Log, body: RawFeedbackRequest, h: Headers, id: string, now: int)
    requires ParseFeedbackRequest(body).Some?
    ensures FeedbackPost(log, Json(body), h, id, now).log
      == Present(Lines(log) + [Entry(BuildRecord(ParseFeedbackRequest(body).value, id, now, h))])
  {
  }

  /** A submission is read back: a GET filtered by its rating, with a limit no smaller than the
      number of such records, lists the stored record, with the submitted fields unchanged. */
  lemma {:induction false} SubmittedFeedbackIsListed(log: Log, body: RawFeedbackRequest, h: Headers, id: string,
                                                     now: int, limit: nat, key: string)
    requires ParseFeedbackRequest(body).Some?
    requires var req := ParseFeedbackRequest(body).value;
      limit >= |FilterRating(Records(Lines(log)) + [BuildRecord(req, id, now, h)], Some(RatingName(req.rating)))|
    ensures var req := ParseFeedbackRequest(body).value;
      var after := FeedbackPost(log, Json(body), h, id, now).log;
      var got := FeedbackGet(after, Query(Some(limit), Some(RatingName(req.rating)), Some(key)), Some(key));
      && got.status == 200
      && BuildRecord(req, id, now, h) in got.listing.value.feedbacks
  {
    var req := ParseFeedbackRequest(body).value;
    var rec := BuildRecord(req, id, now, h);
    var lines := Lines(log) + [Entry(rec)];
    var q := Query(Some(limit), Some(RatingName(req.rating)), Some(key));
    PostAppendsRecord(log, body, h, id, now);
    assert FeedbackGet(Present(lines), q, Some(key)) == GetResult(200, Some(ListLines(lines, q)));
    AppendedRecordIsListed(Lines(log), rec, limit, Some(key));
  }
}

=== FILE: premium.dfy ===
/** The tier and quota gate: which keys grant the premium tier, which models a tier may use,
    the daily quota per (tier, model), and the per-model day counters kept in browser storage. */
module Premium {
  import opened Wrappers
  import opened Enums
  import Text

  /** The demo keys that are always accepted, after any configured ones. */
  const DemoKeys: seq<string> := ["premium_demo_2024", "dev_premium_123", "early_access_key"]

  /** The configured keys: the comma-separated `PREMIUM_KEYS` value, each piece trimmed. */
  function EnvKeys(env: string): (keys: seq<string>)
    ensures |keys| == |Text.Split(env, ',')|
    ensures forall i :: 0 <= i < |keys| ==> keys[i] == Text.Trim(Text.Split(env, ',')[i])
  {
    var parts := Text.Split(env, ',');
    seq(|parts|, i requires 0 <= i < |parts| => Text.Trim(parts[i]))
  }

  /** All accepted keys; an unset `PREMIUM_KEYS` contributes none. */
  function ValidPremiumKeys(env: Option<string>): (keys: seq<string>)
    ensures env.None? ==> keys == DemoKeys
    ensures forall k :: k in keys <==> k in DemoKeys || (env.Some? && k in EnvKeys(env.value))
  {
    (if env.Some? then EnvKeys(env.value) else []) + DemoKeys
  }

  /** A key is valid when it is a demo key or one of the configured keys, trimmed. */
  function ValidatePremiumKey(key: string, env: Option<string>): (ok: bool)
    ensures ok <==> key in DemoKeys || (env.Some? && key in EnvKeys(env.value))
  {
    key in ValidPremiumKeys(env)
  }

  /** The tier of a user holding `premiumKey`: premium only for a non-empty accepted key. */
  function GetUserTier(premiumKey: Option<string>, env: Option<string>): (t: Tier)
    ensures t == Premium <==>
      premiumKey.Some? && premiumKey.value != ""
      && (premiumKey.value in DemoKeys || (env.Some? && premiumKey.value in EnvKeys(env.value)))
  {
    if premiumKey.Some? && premiumKey.value != "" && ValidatePremiumKey(premiumKey.value, env)
    then Premium else Free
  }

  /** A configured key is accepted whatever whitespace surrounds it in the comma-separated list. */
  lemma {:induction false} ConfiguredKeyGrantsPremium(pieces: seq<string>, i: nat)
    requires i < |pieces|
    requires forall j :: 0 <= j < |pieces| ==> ',' !in pieces[j]
    requires exists k :: 0 <= k < |pieces[i]| && !Text.IsWhitespace(pieces[i][k])
    ensures GetUserTier(Some(Text.Trim(pieces[i])), Some(Text.Join(pieces, ","))) == Premium
  {
    Text.SplitJoin(pieces, ',');
    assert [','] == ",";
    var keys := EnvKeys(Text.Join(pieces, ","));
    assert keys[i] == Text.Trim(pieces[i]);
  }

  /** With `PREMIUM_KEYS` set to the empty string the empty key validates, yet the tier stays free. */
  lemma EmptyKeyIsFree(env: Option<string>)
    ensures ValidatePremiumKey("", Some(""))
    ensures GetUserTier(Some(""), env) == Free
    ensures GetUserTier(None, env) == Free
  {
    var parts := Text.Split("", ',');
    assert parts == [""];
    assert Text.Trim(parts[0]) == "";
    assert EnvKeys("")[0] == "";
  }

  /** The tier a model requires, from the model information table. */
  function ModelTier(m: Model): Tier {
    match m
    case Mini => Free
    case Gpt4o => Premium
  }

  /** The free model is open to every tier; the premium model needs the premium tier. */
  function CanUseModel(m: Model, t: Tier): (ok: bool)
    ensures ok <==> m == Mini || t == Premium
  {
    if ModelTier(m) == Free then true else t == Premium
  }

  /** One entry of the quota table; the hourly figure is declared but never enforced. */
  datatype UsageLimit = UsageLimit(daily: nat, hourly: Option<nat>, model: Model)

  function UsageLimits(t: Tier): seq<UsageLimit> {
    match t
    case Free => [UsageLimit(5, None, Mini)]
    case Premium => [UsageLimit(50, Some(10), Mini), UsageLimit(10, Some(3), Gpt4o)]
  }

  /** `limits.find(l => l.model === m)`: the first entry for the model. */
  function FindLimit(limits: seq<UsageLimit>, m: Model): (r: Option<UsageLimit>)
    ensures r.Some? ==>
              exists i :: && 0 <= i < |limits| && limits[i] == r.value
                          && forall j :: 0 <= j < i ==> limits[j].model != m
    ensures r.Some? ==> r.value.model == m
    ensures r.None? <==> forall i :: 0 <= i < |limits| ==> limits[i].model != m
    ensures r.Some? && |limits| > 0 && limits[0].model == m ==> r.value == limits[0]
  {
    if |limits| == 0 then None
    else if limits[0].model == m then Some(limits[0])
    else
      var r := FindLimit(limits[1..], m);
      assert forall i :: 1 <= i < |limits| ==> limits[i] == limits[1..][i - 1];
      r
  }

  /** The tier's quota entry for the model, if its table has one. */
  function GetUsageLimit(t: Tier, m: Model): (r: Option<UsageLimit>)
    ensures r.Some? ==> r.value in UsageLimits(t) && r.value.model == m
    ensures r.None? <==> forall l :: l in UsageLimits(t) ==> l.model != m
  {
    FindLimit(UsageLimits(t), m)
  }

  /** The quota table: 5/day of the free model for free users; 50 and 10 for premium users.
      A quota exists exactly when the tier may use the model. */
  lemma QuotaTable(t: Tier, m: Model)
    ensures GetUsageLimit(Free, Mini) == Some(UsageLimit(5, None, Mini))
    ensures GetUsageLimit(Free, Gpt4o) == None
    ensures GetUsageLimit(Premium, Mini) == Some(UsageLimit(50, Some(10), Mini))
    ensures GetUsageLimit(Premium, Gpt4o) == Some(UsageLimit(10, Some(3), Gpt4o))
    ensures GetUsageLimit(t, m).Some? <==> CanUseModel(m, t)
  {
    assert UsageLimits(Premium)[1..] == [UsageLimit(10, Some(3), Gpt4o)];
  }

  const UsagePrefix := "pct-usage-"

  /** The storage key of a model's day counter. */
  function UsageKey(m: Model): (key: string)
    ensures |key| > |UsagePrefix| && key[..|UsagePrefix|] == UsagePrefix
    ensures key[|UsagePrefix|..] == ModelName(m)
  {
    UsagePrefix + ModelName(m)
  }

  /** The two models' counters live under different keys. */
  lemma UsageKeyInjective(m: Model, m': Model)
    ensures UsageKey(m) == UsageKey(m') ==> m == m'
  {
    if m != m' {
      assert |UsageKey(m)| != |UsageKey(m')|;
    }
  }

  /** What a storage slot holds: a counter record, or text that does not parse as one.
      Storage is writable by the user, so a stored count may be negative. */
  datatype Slot = Saved(date: string, used: int) | Corrupt

  /** Browser storage: the slots present, and whether storage can be accessed at all. */
  datatype Storage = Storage(slots: map<string, Slot>, accessible: bool)

  /** Result of a quota check. */
  datatype UsageStatus = UsageStatus(canUse: bool, remaining: nat, limit: nat)

  /** The count stored for `key` if it was recorded `today`, else 0. */
  function UsedToday(store: Storage, key: string, today: string): int {
    if key in store.slots && store.slots[key].Saved? && store.slots[key].date == today
    then store.slots[key].used else 0
  }

  /** Storage cannot be read for this key, so the check fails open and the increment does nothing. */
  predicate Unreadable(store: Storage, key: string) {
    !store.accessible || (key in store.slots && store.slots[key].Corrupt?)
  }

  function Max0(x: int): nat {
    if x > 0 then x else 0
  }

  /** The quota check: no quota entry means no use; otherwise the day's remaining budget,
      failing open when storage cannot be read. */
  function CheckUsageLimit(store: Storage, m: Model, t: Tier, today: string): (r: UsageStatus)
    ensures GetUsageLimit(t, m).None? ==> r == UsageStatus(false, 0, 0)
    ensures GetUsageLimit(t, m).Some? ==>
      && r.limit == GetUsageLimit(t, m).value.daily
      && r.canUse == (r.remaining > 0)
    ensures GetUsageLimit(t, m).Some? && UsedToday(store, UsageKey(m), today) >= 0 ==> r.remaining <= r.limit
    ensures GetUsageLimit(t, m).Some? && !Unreadable(store, UsageKey(m)) && UsedToday(store, UsageKey(m), today) < 0 ==>
      r.remaining > r.limit
    ensures GetUsageLimit(t, m).Some? && Unreadable(store, UsageKey(m)) ==> r.remaining == r.limit
    ensures GetUsageLimit(t, m).Some? && !Unreadable(store, UsageKey(m)) ==>
      r.remaining == Max0(r.limit - UsedToday(store, UsageKey(m), today))
  {
    match GetUsageLimit(t, m)
    case None => UsageStatus(false, 0, 0)
    case Some(l) =>
      var key := UsageKey(m);
      if Unreadable(store, key) then UsageStatus(true, l.daily, l.daily)
      else
        var remaining := Max0(l.daily - UsedToday(store, key, today));
        UsageStatus(remaining > 0, remaining, l.daily)
  }

  /** Records one more use of `m` today: a counter from an earlier day restarts at 1;
      unreadable storage is left as it was. */
  function IncrementUsage(store: Storage, m: Model, today: string): (s': Storage)
    ensures s'.accessible == store.accessible
    ensures Unreadable(store, UsageKey(m)) ==> s' == store
    ensures !Unreadable(store, UsageKey(m)) ==>
      s'.slots == store.slots[UsageKey(m) := Saved(today, UsedToday(store, UsageKey(m), today) + 1)]
    ensures forall k :: k != UsageKey(m) ==>
      (k in s'.slots <==> k in store.slots) && (k in store.slots ==> s'.slots[k] == store.slots[k])
  {
    var key := UsageKey(m);
    if Unreadable(store, key) then store
    else
      var used := if key in store.slots && store.slots[key].date == today
        then store.slots[key].used + 1 else 1;
      Storage(store.slots[key := Saved(today, used)], store.accessible)
  }

  /** After one use, a same-day check reports one less remaining, floored at zero. */
  lemma IncrementThenCheck(store: Storage, m: Model, t: Tier, today: string)
    requires !Unreadable(store, UsageKey(m))
    requires GetUsageLimit(t, m).Some?
    ensures CheckUsageLimit(IncrementUsage(store, m, today), m, t, today).remaining
      == Max0(CheckUsageLimit(store, m, t, today).remaining - 1)
  {
  }

  /** Using one model never changes what the check reports for the other. */
  lemma IncrementLeavesOtherModel(store: Storage, m: Model, other: Model, t: Tier, today: string)
    requires other != m
    ensures CheckUsageLimit(IncrementUsage(store, m, today), other, t, today)
      == CheckUsageLimit(store, other, t, today)
  {
    UsageKeyInjective(m, other);
  }

  /** `n` uses of `m` on the same day. */
  function IncrementTimes(store: Storage, m: Model, today: string, n: nat): Storage
    decreases n
  {
    if n == 0 then store else IncrementUsage(IncrementTimes(store, m, today, n - 1), m, today)
  }

  /** Starting from no record (or one from another day), after `n` uses the check reports
      `max(0, daily - n)` remaining, so the `daily`-th use is the last one allowed. */
  lemma {:induction false} QuotaCountsUses(store: Storage, m: Model, t: Tier, today: string, n: nat)
    requires !Unreadable(store, UsageKey(m))
    requires UsedToday(store, UsageKey(m), today) == 0
    requires GetUsageLimit(t, m).Some?
    ensures !Unreadable(IncrementTimes(store, m, today, n), UsageKey(m))
    ensures UsedToday(IncrementTimes(store, m, today, n), UsageKey(m), today) == n
    ensures CheckUsageLimit(IncrementTimes(store, m, today, n), m, t, today).remaining
      == Max0(GetUsageLimit(t, m).value.daily - n)
    ensures CheckUsageLimit(IncrementTimes(store, m, today, n), m, t, today).canUse
      <==> n < GetUsageLimit(t, m).value.daily
    decreases n
  {
    if n > 0 {
      QuotaCountsUses(store, m, t, today, n - 1);
    }
  }
}

=== FILE: prompt.dfy ===
/** The prompt builder: policy tables keyed by politeness, purpose and intent, and the functions that
    assemble the analysis, plain and enhanced prompts from them. The long instruction paragraphs are
    represented by short, distinct tag strings; only which paragraph is chosen and where it goes is
    modelled. */
module Prompt {
  import opened Wrappers
  import opened Enums
  import opened Schema
  import Text

  /** The settings a prompt is built from. Fields read off a stage-1 object may be absent or hold
      values outside the tables; `tonePreset` is never supplied by the route. */
  datatype Context = Context(
    purpose: Option<string>,
    intent: Option<string>,
    politeness: Option<int>,
    language: Language,
    tonePreset: Option<string>)

  /** The context built from validated settings, as the route builds it. */
  function ContextOf(p: Purpose, i: Intent, pol: Politeness, lang: Language): Context {
    Context(Some(PurposeName(p)), Some(IntentName(i)), Some(pol), lang, None)
  }

  // ---- policy tables ----

  function PolitenessText(pol: Politeness): string {
    if pol == 1 then "{tone:concise}" else if pol == 2 then "{tone:standard}" else "{tone:deferential}"
  }

  function LayoutText(p: Purpose): string {
    match p
    case Email => "{layout:email}"
    case Report => "{layout:report}"
    case Memo => "{layout:memo}"
    case Messenger => "{layout:messenger}"
    case Minutes => "{layout:minutes}"
  }

  function IntentHintText(i: Intent): string {
    match i
    case Request => "{intent:request}"
    case Decline => "{intent:decline}"
    case Rebuttal => "{intent:rebuttal}"
    case Apology => "{intent:apology}"
    case Persuade => "{intent:persuade}"
    case Notice => "{intent:notice}"
    case Escalation => "{intent:escalation}"
  }

  /** Preferred and avoided phrases for one intent. */
  datatype Bank = Bank(prefer: seq<string>, avoid: seq<string>)

  function PhraseBank(i: Intent): Bank {
    match i
    case Request => Bank(["공유 부탁드립니다", "검토 부탁드립니다", "가능하시다면", "확인 부탁드립니다"],
                         ["빨리", "당장", "왜", "좀", "지금 당장"])
    case Decline => Bank(["현 시점에서는 어렵습니다", "대안으로는", "사정으로 인해"], ["못합니다", "안 됩니다", "절대"])
    case Rebuttal => Bank(["제 이해로는", "근거는 다음과 같습니다", "대안 제안"], ["틀렸습니다", "말이 안 됩니다"])
    case Apology => Bank(["혼선을 드려 죄송합니다", "재발 방지 조치", "확인 후 공유드리겠습니다"], ["변명", "책임 전가"])
    case Persuade => Bank(["수신자 관점에서의 이점", "데이터 근거", "리스크/완화"], ["감정적 호소", "근거 없는 확신"])
    case Notice => Bank(["변경 사항", "일정/영향", "필요 시 액션"], ["과장 표현", "애매한 시제"])
    case Escalation => Bank(["영향도", "우선순위 조정", "지원 요청드립니다"], ["책임 추궁", "탓"])
  }

  const ToneFriendly := "{preset:friendly}"
  const ToneFirm := "{preset:firm}"
  const ToneCautious := "{preset:cautious}"
  const ToneDefault := "{preset:default}"

  /** The tone-preset modifier: three named presets, everything else the standard one. */
  function TonePresetRule(preset: string): (r: string)
    ensures preset == "friendly" <==> r == ToneFriendly
    ensures preset == "firm" <==> r == ToneFirm
    ensures preset == "cautious" <==> r == ToneCautious
    ensures preset !in {"friendly", "firm", "cautious"} <==> r == ToneDefault
  {
    if preset == "friendly" then ToneFriendly
    else if preset == "firm" then ToneFirm
    else if preset == "cautious" then ToneCautious
    else ToneDefault
  }

  // ---- lookups by the (possibly absent or unknown) context values ----

  function PolitenessRule(pol: Option<int>): Option<string> {
    if pol.Some? && 1 <= pol.value <= 3 then Some(PolitenessText(pol.value)) else None
  }

  function PurposeLayout(p: Option<string>): Option<string> {
    if p.Some? && ParsePurpose(p.value).Some? then Some(LayoutText(ParsePurpose(p.value).value)) else None
  }

  function IntentHint(i: Option<string>): Option<string> {
    if i.Some? && ParseIntent(i.value).Some? then Some(IntentHintText(ParseIntent(i.value).value)) else None
  }

  function BankFor(i: Option<string>): Option<Bank> {
    if i.Some? && ParseIntent(i.value).Some? then Some(PhraseBank(ParseIntent(i.value).value)) else None
  }

  /** A missing table entry is joined as the empty string. */
  function Render(entry: Option<string>): string {
    entry.GetOr("")
  }

  // ---- language-dependent paragraphs ----

  function Base(lang: Language): string {
    if lang == Ko then "{base:ko}" else "{base:en}"
  }

  function Invariants(lang: Language): string {
    if lang == Ko then "{invariants:ko}" else "{invariants:en}"
  }

  function Guard(lang: Language): string {
    if lang == Ko then "{guard:ko}" else "{guard:en}"
  }

  function FewShot(lang: Language): string {
    if lang == Ko then "{fewshot:ko}" else "{fewshot:en}"
  }

  const NoCot := "{no-reasoning:json-only}"
  const PreferLabel := "선호 표현: "
  const AvoidLabel := "금칙 표현: "
  const PhraseSeparator := ", "

  function PreferLine(intent: Option<string>): string {
    PreferLabel + (if BankFor(intent).Some? then Text.Join(BankFor(intent).value.prefer, PhraseSeparator) else "")
  }

  function AvoidLine(intent: Option<string>): string {
    AvoidLabel + (if BankFor(intent).Some? then Text.Join(BankFor(intent).value.avoid, PhraseSeparator) else "")
  }

  /** The eleven parts of the transformation system prompt. */
  function SystemParts(ctx: Context): (parts: seq<string>)
    ensures |parts| == 11
  {
    [ Base(ctx.language),
      Render(PolitenessRule(ctx.politeness)),
      Render(PurposeLayout(ctx.purpose)),
      Render(IntentHint(ctx.intent)),
      TonePresetRule(ctx.tonePreset.GetOr("default")),
      PreferLine(ctx.intent),
      AvoidLine(ctx.intent),
      NoCot,
      Invariants(ctx.language),
      Guard(ctx.language),
      FewShot(ctx.language) ]
  }

  /** The transformation system prompt: its parts joined by newlines, so it opens with the
      language's role sentence and closes with the language's few-shot anchors. */
  function MakeSystemPrompt(ctx: Context): (r: string)
    ensures Text.OccursAt(Base(ctx.language), r, 0)
    ensures |r| >= |FewShot(ctx.language)|
    ensures Text.OccursAt(FewShot(ctx.language), r, |r| - |FewShot(ctx.language)|)
  {
    var parts := SystemParts(ctx);
    Text.JoinEnds(parts, "\n");
    Text.Join(parts, "\n")
  }

  /** For validated settings the prompt is, in this order: role, the politeness level's style rule,
      the purpose's layout, the intent's hint, the preset (always the default one, since the route
      never passes a preset), the intent's preferred and avoided phrases joined by ", ", the
      no-reasoning rule, and the language's invariants, guard and few-shot anchors. */
  lemma SystemPromptForSettings(p: Purpose, i: Intent, pol: Politeness, lang: Language)
    ensures SystemParts(ContextOf(p, i, pol, lang)) ==
      [ Base(lang), PolitenessText(pol), LayoutText(p), IntentHintText(i), ToneDefault,
        PreferLabel + Text.Join(PhraseBank(i).prefer, ", "),
        AvoidLabel + Text.Join(PhraseBank(i).avoid, ", "),
        NoCot, Invariants(lang), Guard(lang), FewShot(lang) ]
  {
    NamesRoundTrip();
  }

  /** Distinct politeness levels, purposes and intents select distinct style lines. */
  lemma TablesAreInjective(p: Purpose, p': Purpose, i: Intent, i': Intent, pol: Politeness, pol': Politeness)
    ensures PolitenessText(pol) == PolitenessText(pol') ==> pol == pol'
    ensures LayoutText(p) == LayoutText(p') ==> p == p'
    ensures IntentHintText(i) == IntentHintText(i') ==> i == i'
  {
  }

  /** A value outside a table leaves its line empty rather than failing. */
  lemma UnknownKeysRenderEmpty(ctx: Context)
    requires ctx.purpose.None? || ParsePurpose(ctx.purpose.value).None?
    requires ctx.intent.None? || ParseIntent(ctx.intent.value).None?
    requires ctx.politeness.None? || !(1 <= ctx.politeness.value <= 3)
    ensures SystemParts(ctx)[1] == "" && SystemParts(ctx)[2] == "" && SystemParts(ctx)[3] == ""
    ensures SystemParts(ctx)[5] == PreferLabel && SystemParts(ctx)[6] == AvoidLabel
  {
  }

  /** Korean prompts use the Korean role, invariants, guard and few-shot paragraphs; English the English ones. */
  lemma LanguageSwitch(ctx: Context)
    ensures ctx.language == Ko ==>
      var parts := SystemParts(ctx);
      parts[0] == "{base:ko}" && parts[8] == "{invariants:ko}" && parts[9] == "{guard:ko}" && parts[10] == "{fewshot:ko}"
    ensures ctx.language == En ==>
      var parts := SystemParts(ctx);
      parts[0] == "{base:en}" && parts[8] == "{invariants:en}" && parts[9] == "{guard:en}" && parts[10] == "{fewshot:en}"
    ensures MakeSystemPrompt(ctx) != MakeSystemPrompt(ctx.(language := if ctx.language == Ko then En else Ko))
  {
  }

  // ---- transformation user prompt ----

  const UserHead := "[원문] \n"
  const UserGuard := "{user:security-block}"
  const TransformJsonSchema := "{schema:transform}"
  const OutputRules := "{user:json-only}"

  /** The plain user prompt: the raw text verbatim after the heading, then the security block,
      the transform schema and the output rules. */
  function MakeUserPrompt(raw: string, ctx: Context): (r: string)
    ensures Text.OccursAt(UserHead, r, 0)
    ensures Text.OccursAt(raw, r, |UserHead|)
    ensures Text.OccursAt(UserGuard, r, |UserHead| + |raw|)
    ensures Text.OccursAt(TransformJsonSchema, r, |UserHead| + |raw| + |UserGuard|)
    ensures Text.OccursAt(OutputRules, r, |UserHead| + |raw| + |UserGuard| + |TransformJsonSchema|)
    ensures |r| == |UserHead| + |raw| + |UserGuard| + |TransformJsonSchema| + |OutputRules|
  {
    Text.ConcatParts(UserHead, raw, UserGuard, TransformJsonSchema, OutputRules);
    UserHead + raw + UserGuard + TransformJsonSchema + OutputRules
  }

  /** The raw text can be read back from the plain user prompt: distinct texts give distinct prompts. */
  lemma UserPromptKeepsText(raw1: string, raw2: string, ctx: Context)
    requires MakeUserPrompt(raw1, ctx) == MakeUserPrompt(raw2, ctx)
    ensures raw1 == raw2
  {
    var r := MakeUserPrompt(raw1, ctx);
    assert |raw1| == |raw2|;
    assert raw1 == r[|UserHead|..|UserHead| + |raw1|] == raw2;
  }

  /** The plain user prompt does not depend on the settings. */
  lemma UserPromptIgnoresContext(raw: string, c1: Context, c2: Context)
    ensures MakeUserPrompt(raw, c1) == MakeUserPrompt(raw, c2)
  {
  }

  // ---- analysis prompts ----

  const AnalysisSystemPrompt := "{analysis:system}"
  const AnalysisHead := "{analysis:head}\n"
  const AnalysisGuard := "{analysis:security-block}"
  const AnalysisJsonSchema := "{schema:analysis}"
  const AnalysisRules := "{analysis:requirements}"

  function MakeAnalysisSystemPrompt(): string {
    AnalysisSystemPrompt
  }

  /** The analysis user prompt: the text verbatim after the heading, then the guard and the analysis schema. */
  function MakeAnalysisUserPrompt(text: string): (r: string)
    ensures Text.OccursAt(AnalysisHead, r, 0)
    ensures Text.OccursAt(text, r, |AnalysisHead|)
    ensures Text.OccursAt(AnalysisGuard, r, |AnalysisHead| + |text|)
    ensures Text.OccursAt(AnalysisJsonSchema, r, |AnalysisHead| + |text| + |AnalysisGuard|)
    ensures Text.OccursAt(AnalysisRules, r, |AnalysisHead| + |text| + |AnalysisGuard| + |AnalysisJsonSchema|)
    ensures |r| == |AnalysisHead| + |text| + |AnalysisGuard| + |AnalysisJsonSchema| + |AnalysisRules|
  {
    Text.ConcatParts(AnalysisHead, text, AnalysisGuard, AnalysisJsonSchema, AnalysisRules);
    AnalysisHead + text + AnalysisGuard + AnalysisJsonSchema + AnalysisRules
  }

  /** The text can be read back from the analysis user prompt: distinct texts give distinct prompts. */
  lemma AnalysisPromptKeepsText(text1: string, text2: string)
    requires MakeAnalysisUserPrompt(text1) == MakeAnalysisUserPrompt(text2)
    ensures text1 == text2
  {
    var r := MakeAnalysisUserPrompt(text1);
    assert |text1| == |text2|;
    assert text1 == r[|AnalysisHead|..|AnalysisHead| + |text1|] == text2;
  }

  // ---- enhanced prompts ----

  const NoEmotions := "없음"
  const DefaultIntensity := "보통"
  const GuidanceHead := "\n\n{guidance:head}"
  const GuidanceIntensity := "\n- 감정 강도: "
  const GuidanceReasoning := "\n- 분석 근거: "
  const GuidanceRules := "{guidance:rules}"

  /** The detected emotions joined by ", ", or "없음" when absent or empty. */
  function EmotionsText(info: AnalysisInfo): (r: string)
    ensures r == NoEmotions <==>
      info.detectedEmotions.None? || Text.Join(info.detectedEmotions.value, ", ") in {"", NoEmotions}
    ensures info.detectedEmotions.Some? && Text.Join(info.detectedEmotions.value, ", ") != "" ==>
      r == Text.Join(info.detectedEmotions.value, ", ")
  {
    var joined := if info.detectedEmotions.Some? then Text.Join(info.detectedEmotions.value, ", ") else "";
    if joined == "" then NoEmotions else joined
  }

  /** The intensity, or "보통" when absent or empty. */
  function IntensityText(info: AnalysisInfo): (r: string)
    ensures r == DefaultIntensity <==> info.emotionIntensity.None? || info.emotionIntensity.value in {"", DefaultIntensity}
    ensures info.emotionIntensity.Some? && info.emotionIntensity.value != "" ==> r == info.emotionIntensity.value
    ensures r != ""
  {
    if info.emotionIntensity.Some? && info.emotionIntensity.value != "" then info.emotionIntensity.value
    else DefaultIntensity
  }

  /** The guidance block appended to the system prompt in the enhanced variant. */
  function Guidance(info: AnalysisInfo): string {
    GuidanceHead + EmotionsText(info) + GuidanceIntensity + IntensityText(info)
    + GuidanceReasoning + info.reasoning.GetOr("") + GuidanceRules
  }

  /** The enhanced system prompt extends the plain one: the plain prompt for the same settings,
      followed by the guidance block. */
  function MakeEnhancedSystemPrompt(ctx: Context, info: AnalysisInfo): (r: string)
    ensures Text.OccursAt(MakeSystemPrompt(ctx), r, 0)
    ensures r[|MakeSystemPrompt(ctx)|..] == Guidance(info)
  {
    MakeSystemPrompt(ctx) + Guidance(info)
  }

  /** With no emotions and no intensity recorded, the guidance says "없음" and "보통". */
  lemma GuidanceDefaults(info: AnalysisInfo)
    requires info.detectedEmotions.None? || info.detectedEmotions.value == []
    requires info.emotionIntensity.None?
    ensures Text.OccursAt(NoEmotions, Guidance(info), |GuidanceHead|)
    ensures Text.OccursAt(DefaultIntensity, Guidance(info), |GuidanceHead| + |NoEmotions| + |GuidanceIntensity|)
  {
    var g := Guidance(info);
    assert EmotionsText(info) == NoEmotions;
    assert g[|GuidanceHead|..|GuidanceHead| + |NoEmotions|] == NoEmotions;
    var at := |GuidanceHead| + |NoEmotions| + |GuidanceIntensity|;
    assert g[at..at + |DefaultIntensity|] == DefaultIntensity;
  }

  const MessengerLimit := "총 120자 이내, 줄바꿈 최대 1회."
  const MemoLimit := "200자 이내, 불릿 2-3개."
  const ReportLimit := "불릿 최대 4개, 결론 1-2문장."
  const StandardLimit := "표준 길이 제한."

  /** The length-limit line: its own line for messenger, memo and report; the standard line otherwise. */
  function LengthLimit(purpose: Option<string>): (r: string)
    ensures r == MessengerLimit <==> purpose == Some("messenger")
    ensures r == MemoLimit <==> purpose == Some("memo")
    ensures r == ReportLimit <==> purpose == Some("report")
    ensures r == StandardLimit <==> purpose !in {Some("messenger"), Some("memo"), Some("report")}
  {
    if purpose == Some("messenger") then MessengerLimit
    else if purpose == Some("memo") then MemoLimit
    else if purpose == Some("report") then ReportLimit
    else StandardLimit
  }

  /** An absent value interpolated into a template literal reads "undefined". */
  function Show(v: Option<string>): string {
    v.GetOr("undefined")
  }

  function ShowInt(v: Option<int>): string {
    if v.Some? then Text.IntToString(v.value) else "undefined"
  }

  /** The confidence as a rounded percentage, `Math.round(c * 100)`, computed on exact reals. */
  function Percent(c: Option<real>): (r: string)
    ensures c.None? ==> r == "NaN"
    ensures c.Some? && 0.0 <= c.value <= 1.0 ==> 1 <= |r| <= 3 && forall k :: 0 <= k < |r| ==> Text.IsDigit(r[k])
    ensures c.Some? && 0.0 <= c.value <= 1.0 ==> Text.DecimalValue(r) == (c.value * 100.0 + 0.5).Floor
  {
    if c.None? then "NaN" else
      var n := (c.value * 100.0 + 0.5).Floor;
      if n >= 0 then
        var r := Text.NatToString(n);
        assert n <= 100 ==> |r| <= 3 by {
          if n <= 100 && |r| > 3 { PercentDigits(n); }
        }
        r
      else Text.IntToString(n)
  }

  /** A number up to 100 has at most three decimal digits. */
  lemma PercentDigits(n: nat)
    requires n <= 100
    ensures |Text.NatToString(n)| <= 3
  {
    if 10 <= n < 100 {
      assert |Text.NatToString(n / 10)| == 1;
    } else if n == 100 {
      assert |Text.NatToString(1)| == 1;
      assert |Text.NatToString(10)| == 2;
    }
  }

  const EnhancedHead := "[원문]\n"
  const EnhancedPurposeLabel := "\n\n[AI 분석 결과]\n- 문서 목적: "
  const EnhancedIntentLabel := "\n- 의도: "
  const EnhancedPolitenessLabel := "  \n- 정중함: "
  const EnhancedConfidenceLabel := "\n- 신뢰도: "
  const EnhancedInstructions := "%\n{enhanced:instructions}\n- "
  const EnhancedSubjectRule := "\n- {enhanced:subject-rule}"

  /** The analysed settings as listed in the enhanced user prompt. */
  function SettingsBlock(ctx: Context, a: AnalysisObject): string {
    EnhancedPurposeLabel + Show(ctx.purpose)
    + EnhancedIntentLabel + Show(ctx.intent) + EnhancedPolitenessLabel + ShowInt(ctx.politeness)
    + EnhancedConfidenceLabel + Percent(a.confidence) + EnhancedInstructions
  }

  const EnhancedTail := EnhancedSubjectRule + TransformJsonSchema + OutputRules

  /** The enhanced user prompt: the text verbatim after the heading, then the analysed settings,
      then the instructions, among which the purpose's length-limit line. */
  function MakeEnhancedUserPrompt(text: string, ctx: Context, a: AnalysisObject): (r: string)
    ensures Text.OccursAt(text, r, |EnhancedHead|)
    ensures Text.OccursAt(LengthLimit(ctx.purpose), r, |EnhancedHead| + |text| + |SettingsBlock(ctx, a)|)
  {
    var settings := SettingsBlock(ctx, a);
    var limit := LengthLimit(ctx.purpose);
    Text.ConcatParts(EnhancedHead, text, settings, limit, EnhancedTail);
    EnhancedHead + text + settings + limit + EnhancedTail
  }
}

=== FILE: schema.dfy ===
/** Request validation: the transform request (with its defaults), the analysis result,
    and the feedback request. A raw body keeps every field optional, as JSON does; the
    validated forms carry the enumerations. */
module Schema {
  import opened Wrappers
  import opened Enums

  /** A request body: JSON, or text that is not JSON (`req.json()` throws with `message`). */
  datatype Body<T> = Json(value: T) | Malformed(message: string)

  /** Longest accepted input text and feedback comment. */
  const MaxTextLength: nat := 500
  const MaxCommentLength: nat := 500

  /** A transform request body as received. */
  datatype RawTransformRequest = RawTransformRequest(
    text: Option<string>,
    purpose: Option<string>,
    intent: Option<string>,
    politeness: Option<real>,
    tonePreset: Option<string>,
    language: Option<string>,
    smartMode: Option<bool>,
    model: Option<string>,
    premium: Option<bool>)

  /** A validated transform request with defaults applied. */
  datatype TransformRequest = TransformRequest(
    text: string,
    purpose: Option<Purpose>,
    intent: Option<Intent>,
    politeness: Option<Politeness>,
    tonePreset: string,
    language: Language,
    smartMode: bool,
    model: Model,
    premium: bool)

  predicate IsInteger(x: real) {
    x.Floor as real == x
  }

  /** A politeness value: an integer from 1 to 3. */
  predicate ValidPoliteness(x: real) {
    IsInteger(x) && 1.0 <= x <= 3.0
  }

  predicate ValidTransformRequest(raw: RawTransformRequest) {
    && raw.text.Some? && 1 <= |raw.text.value| <= MaxTextLength
    && (raw.purpose.None? || ParsePurpose(raw.purpose.value).Some?)
    && (raw.intent.None? || ParseIntent(raw.intent.value).Some?)
    && (raw.politeness.None? || ValidPoliteness(raw.politeness.value))
    && (raw.language.None? || ParseLanguage(raw.language.value).Some?)
    && (raw.model.None? || ParseModel(raw.model.value).Some?)
  }

  function ParsePoliteness(x: real): (r: Option<Politeness>)
    ensures r.Some? <==> ValidPoliteness(x)
    ensures r.Some? ==> r.value as real == x
  {
    if ValidPoliteness(x) then Some(x.Floor) else None
  }

  /** Parses a transform request: rejects it unless every present field is well-formed, and fills in
      the defaults "default", "ko", false, "gpt-4o-mini" and false for absent fields. */
  function ParseTransformRequest(raw: RawTransformRequest): (r: Option<TransformRequest>)
    ensures r.Some? <==> ValidTransformRequest(raw)
    ensures r.Some? ==> r.value.text == raw.text.value && 1 <= |r.value.text| <= MaxTextLength
    ensures r.Some? ==> (r.value.purpose.Some? <==> raw.purpose.Some?)
    ensures r.Some? && r.value.purpose.Some? ==> PurposeName(r.value.purpose.value) == raw.purpose.value
    ensures r.Some? ==> (r.value.intent.Some? <==> raw.intent.Some?)
    ensures r.Some? && r.value.intent.Some? ==> IntentName(r.value.intent.value) == raw.intent.value
    ensures r.Some? ==> (r.value.politeness.Some? <==> raw.politeness.Some?)
    ensures r.Some? && r.value.politeness.Some? ==> r.value.politeness.value as real == raw.politeness.value
    ensures r.Some? ==> r.value.tonePreset == raw.tonePreset.GetOr("default")
    ensures r.Some? ==> LanguageName(r.value.language) == raw.language.GetOr("ko")
    ensures r.Some? ==> r.value.smartMode == raw.smartMode.GetOr(false)
    ensures r.Some? ==> ModelName(r.value.model) == raw.model.GetOr("gpt-4o-mini")
    ensures r.Some? ==> r.value.premium == raw.premium.GetOr(false)
  {
    if !ValidTransformRequest(raw) then None
    else
      Some(TransformRequest(
        raw.text.value,
        if raw.purpose.Some? then ParsePurpose(raw.purpose.value) else None,
        if raw.intent.Some? then ParseIntent(raw.intent.value) else None,
        if raw.politeness.Some? then ParsePoliteness(raw.politeness.value) else None,
        raw.tonePreset.GetOr("default"),
        if raw.language.Some? then ParseLanguage(raw.language.value).value else Ko,
        raw.smartMode.GetOr(false),
        if raw.model.Some? then ParseModel(raw.model.value).value else Mini,
        raw.premium.GetOr(false)))
  }

  /** The body that spells out every field of a request. */
  function Unparse(req: TransformRequest): RawTransformRequest {
    RawTransformRequest(
      Some(req.text),
      if req.purpose.Some? then Some(PurposeName(req.purpose.value)) else None,
      if req.intent.Some? then Some(IntentName(req.intent.value)) else None,
      if req.politeness.Some? then Some(req.politeness.value as real) else None,
      Some(req.tonePreset),
      Some(LanguageName(req.language)),
      Some(req.smartMode),
      Some(ModelName(req.model)),
      Some(req.premium))
  }

  /** Every request whose text has an accepted length survives writing out and parsing back. */
  lemma ParseUnparse(req: TransformRequest)
    requires 1 <= |req.text| <= MaxTextLength
    ensures ParseTransformRequest(Unparse(req)) == Some(req)
  {
    NamesRoundTrip();
    var raw := Unparse(req);
    assert raw.politeness.Some? ==> ValidPoliteness(raw.politeness.value);
  }

  /** An empty body apart from the text gets all defaults and no classification. */
  lemma DefaultsApplied(text: string)
    requires 1 <= |text| <= MaxTextLength
    ensures ParseTransformRequest(RawTransformRequest(Some(text), None, None, None, None, None, None, None, None))
      == Some(TransformRequest(text, None, None, None, "default", Ko, false, Mini, false))
  {
  }

  /** The stage-1 analysis details. */
  datatype AnalysisInfo = AnalysisInfo(
    detectedEmotions: Option<seq<string>>,
    emotionIntensity: Option<string>,
    contextClues: Option<seq<string>>,
    reasoning: Option<string>)

  /** One alternative classification offered by stage 1. */
  datatype Alternative = Alternative(
    purpose: Option<string>,
    intent: Option<string>,
    politeness: Option<int>,
    reason: Option<string>)

  /** An analysis result as an object: whatever the stage-1 text parsed to, or an embedded snapshot. */
  datatype AnalysisObject = AnalysisObject(
    purpose: Option<string>,
    intent: Option<string>,
    politeness: Option<int>,
    confidence: Option<real>,
    analysis: Option<AnalysisInfo>,
    alternativeOptions: Option<seq<Alternative>>)

  /** The object `{}`. */
  const EmptyAnalysis := AnalysisObject(None, None, None, None, None, None)

  predicate ValidAnalysisInfo(info: AnalysisInfo) {
    && info.detectedEmotions.Some?
    && info.emotionIntensity.Some? && ParseIntensity(info.emotionIntensity.value).Some?
    && info.contextClues.Some?
    && info.reasoning.Some?
  }

  /** An alternative needs a reason; its other fields are optional but constrained when present. */
  predicate ValidAlternative(alt: Alternative) {
    && alt.reason.Some?
    && (alt.purpose.None? || ParsePurpose(alt.purpose.value).Some?)
    && (alt.intent.None? || ParseIntent(alt.intent.value).Some?)
    && (alt.politeness.None? || 1 <= alt.politeness.value <= 3)
  }

  /** The analysis-result schema. */
  predicate ValidAnalysis(a: AnalysisObject) {
    && a.purpose.Some? && ParsePurpose(a.purpose.value).Some?
    && a.intent.Some? && ParseIntent(a.intent.value).Some?
    && a.politeness.Some? && 1 <= a.politeness.value <= 3
    && a.confidence.Some? && 0.0 <= a.confidence.value <= 1.0
    && a.analysis.Some? && ValidAnalysisInfo(a.analysis.value)
    && (a.alternativeOptions.None?
        || forall i :: 0 <= i < |a.alternativeOptions.value| ==> ValidAlternative(a.alternativeOptions.value[i]))
  }

  /** Transform settings embedded in a feedback submission. */
  datatype RawSettings = RawSettings(
    purpose: Option<string>,
    intent: Option<string>,
    politeness: Option<real>,
    smartMode: Option<bool>,
    analysisResult: Option<AnalysisObject>)

  datatype Settings = Settings(
    purpose: string,
    intent: string,
    politeness: real,
    smartMode: bool,
    analysisResult: Option<AnalysisObject>)

  /** A feedback body as received. */
  datatype RawFeedbackRequest = RawFeedbackRequest(
    sessionId: Option<string>,
    originalText: Option<string>,
    transformedText: Option<string>,
    transformSettings: Option<RawSettings>,
    rating: Option<string>,
    feedbackType: Option<string>,
    comment: Option<string>,
    timestamp: Option<string>)

  /** A validated feedback submission. */
  datatype FeedbackRequest = FeedbackRequest(
    sessionId: string,
    originalText: string,
    transformedText: string,
    transformSettings: Settings,
    rating: Rating,
    feedbackType: Option<FeedbackType>,
    comment: Option<string>,
    timestamp: Option<string>)

  predicate ValidSettings(s: RawSettings) {
    && s.purpose.Some? && s.intent.Some? && s.politeness.Some? && s.smartMode.Some?
    && (s.analysisResult.None? || ValidAnalysis(s.analysisResult.value))
  }

  predicate ValidFeedbackRequest(raw: RawFeedbackRequest) {
    && raw.sessionId.Some? && |raw.sessionId.value| >= 1
    && raw.originalText.Some? && |raw.originalText.value| >= 1
    && raw.transformedText.Some? && |raw.transformedText.value| >= 1
    && raw.transformSettings.Some? && ValidSettings(raw.transformSettings.value)
    && raw.rating.Some? && ParseRating(raw.rating.value).Some?
    && (raw.feedbackType.None? || ParseFeedbackType(raw.feedbackType.value).Some?)
    && (raw.comment.None? || |raw.comment.value| <= MaxCommentLength)
  }

  /** Parses a feedback submission: the three texts non-empty, the rating one of the two values,
      the comment at most 500 characters, an embedded analysis valid against its own schema. */
  function ParseFeedbackRequest(raw: RawFeedbackRequest): (r: Option<FeedbackRequest>)
    ensures r.Some? <==> ValidFeedbackRequest(raw)
    ensures r.Some? ==>
      && r.value.sessionId == raw.sessionId.value && r.value.sessionId != ""
      && r.value.originalText == raw.originalText.value && r.value.originalText != ""
      && r.value.transformedText == raw.transformedText.value && r.value.transformedText != ""
      && RatingName(r.value.rating) == raw.rating.value
      && r.value.comment == raw.comment
      && (r.value.comment.Some? ==> |r.value.comment.value| <= MaxCommentLength)
      && r.value.timestamp == raw.timestamp
      && (r.value.feedbackType.Some? <==> raw.feedbackType.Some?)
      && (r.value.feedbackType.Some? ==> FeedbackTypeName(r.value.feedbackType.value) == raw.feedbackType.value)
      && r.value.transformSettings.purpose == raw.transformSettings.value.purpose.value
      && r.value.transformSettings.intent == raw.transformSettings.value.intent.value
      && r.value.transformSettings.politeness == raw.transformSettings.value.politeness.value
      && r.value.transformSettings.smartMode == raw.transformSettings.value.smartMode.value
      && r.value.transformSettings.analysisResult == raw.transformSettings.value.analysisResult
      && (r.value.transformSettings.analysisResult.Some? ==>
            ValidAnalysis(r.value.transformSettings.analysisResult.value))
  {
    if !ValidFeedbackRequest(raw) then None
    else
      var s := raw.transformSettings.value;
      Some(FeedbackRequest(
        raw.sessionId.value,
        raw.originalText.value,
        raw.transformedText.value,
        Settings(s.purpose.value, s.intent.value, s.politeness.value, s.smartMode.value, s.analysisResult),
        ParseRating(raw.rating.value).value,
        if raw.feedbackType.Some? then ParseFeedbackType(raw.feedbackType.value) else None,
        raw.comment,
        raw.timestamp))
  }
}

=== FILE: text.dfy ===
/** String helpers with the semantics of the JavaScript built-ins the application relies on:
    `Array.prototype.join`, `String.prototype.split` with a one-character separator,
    `String.prototype.trim`, and decimal rendering of integers in template literals. */
module Text {

  /** `parts.join(sep)`. */
  function Join(parts: seq<string>, sep: string): string
    decreases |parts|
  {
    if |parts| == 0 then ""
    else if |parts| == 1 then parts[0]
    else parts[0] + sep + Join(parts[1..], sep)
  }

  /** `sub` occurs in `s` starting at index `at`. */
  predicate OccursAt(sub: string, s: string, at: nat) {
    at + |sub| <= |s| && s[at..at + |sub|] == sub
  }

  /** Each part of a five-part concatenation occurs at the sum of the lengths before it. */
  lemma ConcatParts(a: string, b: string, c: string, d: string, e: string)
    ensures |a + b + c + d + e| == |a| + |b| + |c| + |d| + |e|
    ensures OccursAt(a, a + b + c + d + e, 0)
    ensures OccursAt(b, a + b + c + d + e, |a|)
    ensures OccursAt(c, a + b + c + d + e, |a| + |b|)
    ensures OccursAt(d, a + b + c + d + e, |a| + |b| + |c|)
    ensures OccursAt(e, a + b + c + d + e, |a| + |b| + |c| + |d|)
  {
    var s := a + b + c + d + e;
    assert s[..|a|] == a;
    assert s[|a|..|a| + |b|] == b;
    assert s[|a| + |b|..|a| + |b| + |c|] == c;
    assert s[|a| + |b| + |c|..|a| + |b| + |c| + |d|] == d;
    assert s[|a| + |b| + |c| + |d|..] == e;
  }

  /** The first part of a join is a prefix of the result and the last part a suffix. */
  lemma {:induction false} JoinEnds(parts: seq<string>, sep: string)
    requires |parts| >= 1
    ensures OccursAt(parts[0], Join(parts, sep), 0)
    ensures |Join(parts, sep)| >= |parts[|parts| - 1]|
    ensures OccursAt(parts[|parts| - 1], Join(parts, sep), |Join(parts, sep)| - |parts[|parts| - 1]|)
    decreases |parts|
  {
    if |parts| > 1 {
      var rest := parts[1..];
      JoinEnds(rest, sep);
      assert rest[|rest| - 1] == parts[|parts| - 1];
      var j := Join(parts, sep);
      assert j == parts[0] + sep + Join(rest, sep);
      assert j[..|parts[0]|] == parts[0];
    }
  }

  /** Index of the first occurrence of `c` in `s`. */
  function IndexOf(s: string, c: char): (i: nat)
    requires c in s
    ensures i < |s| && s[i] == c
    ensures forall k :: 0 <= k < i ==> s[k] != c
  {
    if s[0] == c then 0 else 1 + IndexOf(s[1..], c)
  }

  /** `s.split(sep)`: the maximal separator-free pieces; the empty string gives `[""]`. */
  function Split(s: string, sep: char): (parts: seq<string>)
    ensures |parts| >= 1
    ensures forall i :: 0 <= i < |parts| ==> sep !in parts[i]
    ensures Join(parts, [sep]) == s
    decreases |s|
  {
    if sep !in s then [s]
    else
      var i := IndexOf(s, sep);
      var rest := Split(s[i + 1..], sep);
      assert s == s[..i] + [sep] + s[i + 1..];
      assert ([s[..i]] + rest)[1..] == rest;
      [s[..i]] + rest
  }

  /** In `a + [sep] + b` with `a` separator-free, the first separator sits right after `a`. */
  lemma IndexOfAfterPart(a: string, sep: char, b: string)
    requires sep !in a
    ensures sep in a + [sep] + b
    ensures IndexOf(a + [sep] + b, sep) == |a|
  {
    var s := a + [sep] + b;
    assert s[|a|] == sep;
    assert forall k :: 0 <= k < |a| ==> s[k] == a[k];
  }

  /** Splitting a join of separator-free parts gives the parts back. */
  lemma {:induction false} SplitJoin(parts: seq<string>, sep: char)
    requires |parts| >= 1
    requires forall i :: 0 <= i < |parts| ==> sep !in parts[i]
    ensures Split(Join(parts, [sep]), sep) == parts
    decreases |parts|
  {
    if |parts| > 1 {
      var rest := parts[1..];
      SplitJoin(rest, sep);
      var tail := Join(rest, [sep]);
      var s := parts[0] + [sep] + tail;
      assert Join(parts, [sep]) == s;
      IndexOfAfterPart(parts[0], sep, tail);
      assert s[..|parts[0]|] == parts[0];
      assert s[|parts[0]| + 1..] == tail;
      assert Split(s, sep) == [parts[0]] + Split(tail, sep);
      assert parts == [parts[0]] + rest;
    }
  }

  /** The characters `String.prototype.trim` removes (Unicode separators beyond these are not modelled). */
  predicate IsWhitespace(c: char) {
    c == ' ' || c == '\t' || c == '\n' || c == '\r' || c == '\U{000B}' || c == '\U{000C}'
    || c == '\U{00A0}' || c == '\U{FEFF}' || c == '\U{2028}' || c == '\U{2029}'
  }

  /** `s.trimStart()`. */
  function TrimStart(s: string): (r: string)
    ensures |r| <= |s| && r == s[|s| - |r|..]
    ensures forall i :: 0 <= i < |s| - |r| ==> IsWhitespace(s[i])
    ensures |r| == 0 || !IsWhitespace(r[0])
  {
    if |s| > 0 && IsWhitespace(s[0]) then TrimStart(s[1..]) else s
  }

  /** `s.trimEnd()`. */
  function TrimEnd(s: string): (r: string)
    ensures |r| <= |s| && r == s[..|r|]
    ensures forall i :: |r| <= i < |s| ==> IsWhitespace(s[i])
    ensures |r| == 0 || !IsWhitespace(r[|r| - 1])
  {
    if |s| > 0 && IsWhitespace(s[|s| - 1]) then TrimEnd(s[..|s| - 1]) else s
  }

  /** `s.trim()`: `s` is whitespace, then `r`, then whitespace, and `r` has no whitespace at either end. */
  function Trim(s: string): (r: string)
    ensures |r| <= |s|
    ensures exists k: nat ::
              && OccursAt(r, s, k)
              && (forall i :: 0 <= i < k ==> IsWhitespace(s[i]))
              && (forall i :: k + |r| <= i < |s| ==> IsWhitespace(s[i]))
    ensures |r| == 0 || (!IsWhitespace(r[0]) && !IsWhitespace(r[|r| - 1]))
    ensures |r| == 0 <==> forall i :: 0 <= i < |s| ==> IsWhitespace(s[i])
  {
    var a := TrimStart(s);
    var r := TrimEnd(a);
    assert OccursAt(r, s, |s| - |a|);
    r
  }

  /** Trimming an already trimmed string changes nothing. */
  lemma TrimIdempotent(s: string)
    ensures Trim(Trim(s)) == Trim(s)
  {
    var t := Trim(s);
    if |t| > 0 {
      assert TrimStart(t) == t;
      assert TrimEnd(t) == t;
    }
  }

  function DigitChar(d: nat): char
    requires d < 10
  {
    "0123456789"[d]
  }

  function DigitValue(c: char): nat {
    if '0' <= c <= '9' then (c - '0') as nat else 0
  }

  predicate IsDigit(c: char) {
    '0' <= c <= '9'
  }

  /** The number a string of decimal digits denotes (reference reading). */
  function DecimalValue(s: string): nat {
    if |s| == 0 then 0 else 10 * DecimalValue(s[..|s| - 1]) + DigitValue(s[|s| - 1])
  }

  /** Decimal rendering of a natural number, as in a template literal. */
  function NatToString(n: nat): (r: string)
    ensures |r| >= 1
    ensures forall i :: 0 <= i < |r| ==> IsDigit(r[i])
    ensures DecimalValue(r) == n
    ensures |r| > 1 ==> r[0] != '0'
  {
    var d := DigitChar(n % 10);
    assert DigitValue(d) == n % 10 by {
      assert "0123456789"[0] == '0' && "0123456789"[9] == '9';
    }
    if n < 10 then [d]
    else
      var head := NatToString(n / 10);
      var r := head + [d];
      assert r[..|r| - 1] == head;
      r
  }

  /** Decimal rendering of an integer, with a leading '-' when negative. */
  function IntToString(i: int): (r: string)
    ensures |r| >= 1
    ensures i >= 0 ==> r == NatToString(i)
    ensures i < 0 ==> r[0] == '-' && r[1..] == NatToString(-i)
  {
    if i < 0 then "-" + NatToString(-i) else NatToString(i)
  }
}

=== FILE: transform.dfy ===
/** The transform request handler: validation, model admission, routing to the two-stage
    ("smart") or one-stage ("direct") pipeline, the confidence gate, and every fallback.
    The text-generation service is an oracle giving the outcome of the n-th call of the request;
    `JSON.parse` is a pair of parser parameters. Every call made is recorded with its prompts. */
module Transform {
  import opened Wrappers
  import opened Enums
  import opened Schema
  import opened Prompt
  import Premium
  import Text

  /** The outcome of one generation call: an exception, or the service's output text. */
  datatype Outcome = Throw(message: string) | Output(text: string)

  /** The outcome of the n-th generation call made while handling the request. */
  type Service = nat -> Outcome

  /** What the two prompts of a generation call are built from: the plain prompts for a context,
      the analysis prompts, or the enhanced prompts for an analysed context. */
  datatype Prompts =
    | PlainPrompts(text: string, ctx: Context)
    | AnalysisPrompts(text: string)
    | EnhancedPrompts(text: string, ctx: Context, info: AnalysisInfo, a: AnalysisObject)

  /** The system prompt sent for `p`. */
  function SystemText(p: Prompts): string {
    match p
    case PlainPrompts(_, ctx) => MakeSystemPrompt(ctx)
    case AnalysisPrompts(_) => MakeAnalysisSystemPrompt()
    case EnhancedPrompts(_, ctx, info, _) => MakeEnhancedSystemPrompt(ctx, info)
  }

  /** The user prompt sent for `p`. */
  function UserText(p: Prompts): string {
    match p
    case PlainPrompts(text, ctx) => MakeUserPrompt(text, ctx)
    case AnalysisPrompts(text) => MakeAnalysisUserPrompt(text)
    case EnhancedPrompts(text, ctx, _, a) => MakeEnhancedUserPrompt(text, ctx, a)
  }

  /** One generation call: the model, and the prompts sent (rendered by `SystemText` and `UserText`). */
  datatype Call = Call(model: Model, prompts: Prompts)

  /** What a stage-2 or direct output parsed to. */
  datatype TransformData = TransformData(
    revision: Option<string>,
    tips: Option<seq<string>>,
    subject: Option<string>,
    summary: Option<string>)

  const EmptyData := TransformData(None, None, None, None)

  /** The response payload of a successful request. */
  datatype TransformResult = TransformResult(
    revision: Option<string>,
    tips: Option<seq<string>>,
    subject: Option<string>,
    summary: Option<string>,
    analysis: Option<AnalysisObject>,
    needsConfirmation: Option<bool>,
    modelUsed: string)

  datatype Reply = Ok(data: TransformResult) | Error(error: string)

  /** The HTTP exchange: status, body, and the generation calls made along the way. */
  datatype Exchange = Exchange(status: nat, reply: Reply, calls: seq<Call>)

  /** A step of a handler that may throw, with the calls made so far. */
  datatype Attempt<T> = Returned(value: T) | Threw(message: string)
  datatype Run<T> = Run(result: Attempt<T>, calls: seq<Call>)

  const ConfidenceThreshold: real := 0.7
  const FallbackConfidence: real := 0.5
  const ConfirmationTip := "분석 신뢰도가 낮아 설정을 확인해주세요."
  const InvalidRequestError := "잘못된 요청입니다."
  const ForbiddenSuffix := " 모델을 사용할 권한이 없습니다. 프리미엄 구독이 필요합니다."
  const ServerError := "서버 오류가 발생했습니다."
  /** The TypeError raised when the enhanced prompt reads a missing `analysis` object. */
  const MissingAnalysisError := "Cannot read properties of undefined (reading 'detectedEmotions')"

  /** `output_text || "{}"`: an empty output is parsed as the empty object. */
  function OrEmptyObject(output: string): string {
    if output == "" then "{}" else output
  }

  /** `JSON.parse` reads "{}" as an object with no fields. */
  predicate ParsesEmptyObject(parseAnalysis: string -> Option<AnalysisObject>, parseData: string -> Option<TransformData>) {
    parseAnalysis("{}") == Some(EmptyAnalysis) && parseData("{}") == Some(EmptyData)
  }

  /** A stage-2 or direct output: parsed when it parses, otherwise the trimmed raw text as the revision. */
  function DecodeData(output: string, parseData: string -> Option<TransformData>): (d: TransformData)
    ensures parseData(OrEmptyObject(output)).Some? ==> d == parseData(OrEmptyObject(output)).value
    ensures parseData(OrEmptyObject(output)).None? ==>
      d == TransformData(Some(Text.Trim(output)), Some([]), Some(""), Some(""))
  {
    match parseData(OrEmptyObject(output))
    case Some(d) => d
    case None => TransformData(Some(Text.Trim(output)), Some([]), Some(""), Some(""))
  }

  /** The one-stage transform: one call with the plain prompts; a throwing call propagates. */
  function DirectTransform(text: string, ctx: Context, model: Model, svc: Service,
                           parseData: string -> Option<TransformData>, calls: seq<Call>): (r: Run<TransformResult>)
    ensures r.calls == calls + [Call(model, PlainPrompts(text, ctx))]
    ensures r.result.Threw? <==> svc(|calls|).Throw?
    ensures r.result.Threw? ==> r.result.message == svc(|calls|).message
    ensures r.result.Returned? ==>
      var d := DecodeData(svc(|calls|).text, parseData);
      r.result.value == TransformResult(d.revision, d.tips, d.subject, d.summary, None, None, ModelName(model))
  {
    var call := Call(model, PlainPrompts(text, ctx));
    match svc(|calls|)
    case Throw(m) => Run(Threw(m), calls + [call])
    case Output(out) =>
      var d := DecodeData(out, parseData);
      Run(Returned(TransformResult(d.revision, d.tips, d.subject, d.summary, None, None, ModelName(model))),
          calls + [call])
  }

  /** The caller's values, or email / request / 2 where the caller gave none. */
  function FallbackContext(lang: Language, fbPurpose: Option<Purpose>, fbIntent: Option<Intent>,
                           fbPoliteness: Option<Politeness>): Context
  {
    ContextOf(fbPurpose.GetOr(Email), fbIntent.GetOr(Request), fbPoliteness.GetOr(2), lang)
  }

  /** The analysis used when the stage-1 output does not parse. */
  function FallbackAnalysis(fbPurpose: Option<Purpose>, fbIntent: Option<Intent>,
                            fbPoliteness: Option<Politeness>): (a: AnalysisObject)
    ensures a.confidence == Some(FallbackConfidence)
    ensures ValidAnalysis(a)
  {
    AnalysisObject(
      Some(PurposeName(fbPurpose.GetOr(Email))),
      Some(IntentName(fbIntent.GetOr(Request))),
      Some(fbPoliteness.GetOr(2)),
      Some(FallbackConfidence),
      Some(AnalysisInfo(Some([]), Some("medium"), Some(["자동 분석 실패"]), Some("자동 분석에 실패하여 기본값을 사용합니다."))),
      None)
  }

  /** `confidence < 0.7`; an absent confidence compares false. */
  predicate BelowThreshold(confidence: Option<real>) {
    confidence.Some? && confidence.value < ConfidenceThreshold
  }

  /** The analysis object stage 1 produced. */
  function Stage1Analysis(output: string, parseAnalysis: string -> Option<AnalysisObject>,
                          fbPurpose: Option<Purpose>, fbIntent: Option<Intent>,
                          fbPoliteness: Option<Politeness>): AnalysisObject
  {
    match parseAnalysis(OrEmptyObject(output))
    case Some(a) => a
    case None => FallbackAnalysis(fbPurpose, fbIntent, fbPoliteness)
  }

  /** The response that stops for confirmation. */
  function ConfirmationResult(a: AnalysisObject, model: Model): TransformResult {
    TransformResult(Some(""), Some([ConfirmationTip]), Some(""), Some(""), Some(a), Some(true), ModelName(model))
  }

  /** The context stage 2 uses: the analysed values, unvalidated. */
  function AnalysedContext(a: AnalysisObject, lang: Language): Context {
    Context(a.purpose, a.intent, a.politeness, lang, None)
  }

  function AnalysisCall(text: string, model: Model): Call {
    Call(model, AnalysisPrompts(text))
  }

  function EnhancedCall(text: string, a: AnalysisObject, info: AnalysisInfo, lang: Language, model: Model): Call {
    Call(model, EnhancedPrompts(text, AnalysedContext(a, lang), info, a))
  }

  /** The body of the smart path's `try`: stage 1, the gate, and stage 2. */
  function SmartAttempt(text: string, lang: Language, model: Model,
                        fbPurpose: Option<Purpose>, fbIntent: Option<Intent>, fbPoliteness: Option<Politeness>,
                        svc: Service, parseAnalysis: string -> Option<AnalysisObject>,
                        parseData: string -> Option<TransformData>, calls: seq<Call>): (r: Run<TransformResult>)
    ensures |calls| + 1 <= |r.calls| <= |calls| + 2
    ensures r.calls[..|calls| + 1] == calls + [AnalysisCall(text, model)]
    ensures r.result.Returned? && r.result.value.needsConfirmation == Some(true) ==> |r.calls| == |calls| + 1
  {
    var calls1 := calls + [AnalysisCall(text, model)];
    match svc(|calls|)
    case Throw(m) => Run(Threw(m), calls1)
    case Output(out) =>
      var a := Stage1Analysis(out, parseAnalysis, fbPurpose, fbIntent, fbPoliteness);
      if BelowThreshold(a.confidence) then Run(Returned(ConfirmationResult(a, model)), calls1)
      else if a.analysis.None? then Run(Threw(MissingAnalysisError), calls1)
      else
        var calls2 := calls1 + [EnhancedCall(text, a, a.analysis.value, lang, model)];
        assert calls2[..|calls| + 1] == calls1;
        match svc(|calls1|)
        case Throw(m) => Run(Threw(m), calls2)
        case Output(out2) =>
          var d := DecodeData(out2, parseData);
          Run(Returned(TransformResult(d.revision, d.tips, d.subject, d.summary, Some(a), Some(false), ModelName(model))),
              calls2)
  }

  /** The two-stage transform; anything thrown inside it re-runs the request as a direct transform
      with the caller's values or the defaults. */
  function SmartTransform(text: string, lang: Language, model: Model,
                          fbPurpose: Option<Purpose>, fbIntent: Option<Intent>, fbPoliteness: Option<Politeness>,
                          svc: Service, parseAnalysis: string -> Option<AnalysisObject>,
                          parseData: string -> Option<TransformData>): (r: Run<TransformResult>)
    ensures 1 <= |r.calls| <= 3
    ensures r.calls[0] == AnalysisCall(text, model)
    ensures r.result.Returned? && r.result.value.needsConfirmation == Some(true) ==> |r.calls| == 1
    ensures r.result.Threw? ==>
      r.calls[|r.calls| - 1] == Call(model, PlainPrompts(text, FallbackContext(lang, fbPurpose, fbIntent, fbPoliteness)))
      && svc(|r.calls| - 1).Throw?
  {
    var attempt := SmartAttempt(text, lang, model, fbPurpose, fbIntent, fbPoliteness, svc, parseAnalysis, parseData, []);
    assert attempt.calls[0] == AnalysisCall(text, model) by {
      assert attempt.calls[..1] == [AnalysisCall(text, model)];
    }
    if attempt.result.Returned? then attempt
    else
      var fallback := FallbackContext(lang, fbPurpose, fbIntent, fbPoliteness);
      var r := DirectTransform(text, fallback, model, svc, parseData, attempt.calls);
      assert r.calls[0] == attempt.calls[0];
      r
  }

  /** The route goes through analysis when asked to, or when any classification is missing. */
  predicate IsSmart(req: TransformRequest) {
    req.smartMode || req.purpose.None? || req.intent.None? || req.politeness.None?
  }

  /** The tier the route admits with: the client's own `premium` flag. */
  function RouteTier(req: TransformRequest): Tier {
    if req.premium then Premium else Free
  }

  /** The 500 message: the exception's message, or the generic one when it has none. */
  function ErrorMessage(message: string): string {
    if message == "" then ServerError else message
  }

  function Finish(run: Run<TransformResult>): Exchange {
    match run.result
    case Returned(d) => Exchange(200, Ok(d), run.calls)
    case Threw(m) => Exchange(500, Error(ErrorMessage(m)), run.calls)
  }

  /** POST /api/transform. Malformed, invalid and forbidden requests are answered before any
      generation call; an admitted request makes one call on the direct path and one to three on
      the smart path, and fails with 500 only when its final, direct call throws. */
  function TransformPost(body: Body<RawTransformRequest>, svc: Service,
                         parseAnalysis: string -> Option<AnalysisObject>,
                         parseData: string -> Option<TransformData>): (r: Exchange)
    ensures body.Malformed? ==> r.status == 500 && r.calls == []
    ensures body.Json? && ParseTransformRequest(body.value).None? ==>
      r == Exchange(400, Error(InvalidRequestError), [])
    ensures body.Json? && ParseTransformRequest(body.value).Some?
            && !Premium.CanUseModel(ParseTransformRequest(body.value).value.model,
                                    RouteTier(ParseTransformRequest(body.value).value)) ==>
      r.status == 403 && r.reply.Error? && r.calls == []
    ensures r.status !in {400, 403} && body.Json? ==> 1 <= |r.calls| <= 3
    ensures r.status == 200 <==> r.reply.Ok?
    ensures r.status == 500 && body.Json? ==> svc(|r.calls| - 1).Throw?
    ensures r.reply.Ok? && r.reply.data.needsConfirmation == Some(true) ==> |r.calls| == 1
  {
    if body.Malformed? then Exchange(500, Error(ErrorMessage(body.message)), [])
    else
      var parsed := ParseTransformRequest(body.value);
      if parsed.None? then Exchange(400, Error(InvalidRequestError), [])
      else
        var req := parsed.value;
        if !Premium.CanUseModel(req.model, RouteTier(req)) then
          Exchange(403, Error(ModelName(req.model) + ForbiddenSuffix), [])
        else
          Finish(Route(req, svc, parseAnalysis, parseData))
  }

  /** An admitted request, sent down the smart or the direct path. */
  function Route(req: TransformRequest, svc: Service,
                 parseAnalysis: string -> Option<AnalysisObject>,
                 parseData: string -> Option<TransformData>): (r: Run<TransformResult>)
    ensures 1 <= |r.calls| <= 3
    ensures r.result.Threw? ==> svc(|r.calls| - 1).Throw?
    ensures !IsSmart(req) ==> |r.calls| == 1
    ensures IsSmart(req) <==> r.calls[0].prompts.AnalysisPrompts?
    ensures r.result.Returned? && r.result.value.needsConfirmation == Some(true) ==> |r.calls| == 1
  {
    if IsSmart(req) then
      SmartTransform(req.text, req.language, req.model, req.purpose, req.intent, req.politeness,
                     svc, parseAnalysis, parseData)
    else
      var ctx := ContextOf(req.purpose.value, req.intent.value, req.politeness.value, req.language);
      var r := DirectTransform(req.text, ctx, req.model, svc, parseData, []);
      assert |r.calls| == 1;
      assert r.result.Returned? ==> r.result.value.needsConfirmation.None?;
      r
  }
}

=== FILE: transform_facts.dfy ===
/** Properties of the transform route, one lemma per branch of the request state machine. */
module TransformFacts {
  import opened Wrappers
  import opened Enums
  import opened Schema
  import opened Prompt
  import opened Transform
  import Premium
  import Text

  /** The body parsed to `req` and the route admits its model. */
  predicate Admitted(raw: RawTransformRequest, req: TransformRequest) {
    ParseTransformRequest(raw) == Some(req) && Premium.CanUseModel(req.model, RouteTier(req))
  }

  /** Fully classified, non-smart requests make exactly one call, with the plain prompts for the
      request's own settings; its exception is the only way to a 500. */
  lemma DirectPathMakesOneCall(raw: RawTransformRequest, req: TransformRequest, svc: Service,
                               pa: string -> Option<AnalysisObject>, pd: string -> Option<TransformData>)
    requires Admitted(raw, req) && !IsSmart(req)
    ensures var r := TransformPost(Json(raw), svc, pa, pd);
      var ctx := ContextOf(req.purpose.value, req.intent.value, req.politeness.value, req.language);
      && r.calls == [Call(req.model, PlainPrompts(req.text, ctx))]
      && (svc(0).Throw? ==> r == Exchange(500, Error(ErrorMessage(svc(0).message)), r.calls))
      && (svc(0).Output? ==> r.status == 200 && r.reply.data.needsConfirmation.None?
                              && r.reply.data.modelUsed == ModelName(req.model))
  {
  }

  /** An admitted request starts with the analysis call exactly when it asks for smart mode or
      leaves purpose, intent or politeness out; otherwise its first call is the plain transform. */
  lemma SmartPathIffAnalysisFirst(raw: RawTransformRequest, req: TransformRequest, svc: Service,
                                  pa: string -> Option<AnalysisObject>, pd: string -> Option<TransformData>)
    requires Admitted(raw, req)
    ensures var r := TransformPost(Json(raw), svc, pa, pd);
      && |r.calls| >= 1
      && (req.smartMode || req.purpose.None? || req.intent.None? || req.politeness.None?
          <==> r.calls[0].prompts.AnalysisPrompts?)
  {
    assert TransformPost(Json(raw), svc, pa, pd) == Finish(Route(req, svc, pa, pd));
  }

  /** A stage-1 output that does not parse yields the fallback analysis, whose confidence 0.5 is
      below the threshold: the request stops for confirmation after a single call. */
  lemma UnparsableAnalysisAsksForConfirmation(raw: RawTransformRequest, req: TransformRequest, svc: Service,
                                              pa: string -> Option<AnalysisObject>, pd: string -> Option<TransformData>)
    requires Admitted(raw, req) && IsSmart(req)
    requires svc(0).Output? && pa(OrEmptyObject(svc(0).text)).None?
    ensures var r := TransformPost(Json(raw), svc, pa, pd);
      && r.status == 200
      && r.calls == [AnalysisCall(req.text, req.model)]
      && r.reply.data == ConfirmationResult(FallbackAnalysis(req.purpose, req.intent, req.politeness), req.model)
      && r.reply.data.needsConfirmation == Some(true)
  {
    var a := FallbackAnalysis(req.purpose, req.intent, req.politeness);
    var attempt := SmartAttempt(req.text, req.language, req.model, req.purpose, req.intent, req.politeness,
                                svc, pa, pd, []);
    assert attempt == Run(Returned(ConfirmationResult(a, req.model)), [AnalysisCall(req.text, req.model)]);
    assert Route(req, svc, pa, pd) == attempt;
  }

  /** Confidence below 0.7 stops after stage 1: empty revision, subject and summary, the one fixed
      tip, and the analysis returned for confirmation. */
  lemma LowConfidenceAsksForConfirmation(raw: RawTransformRequest, req: TransformRequest, svc: Service,
                                         pa: string -> Option<AnalysisObject>, pd: string -> Option<TransformData>,
                                         a: AnalysisObject)
    requires Admitted(raw, req) && IsSmart(req)
    requires svc(0).Output? && pa(OrEmptyObject(svc(0).text)) == Some(a)
    requires a.confidence.Some? && a.confidence.value < 0.7
    ensures var r := TransformPost(Json(raw), svc, pa, pd);
      && r.status == 200
      && |r.calls| == 1
      && r.reply.data.needsConfirmation == Some(true)
      && r.reply.data.revision == Some("") && r.reply.data.subject == Some("") && r.reply.data.summary == Some("")
      && r.reply.data.tips == Some([ConfirmationTip])
      && r.reply.data.analysis == Some(a)
  {
    var attempt := SmartAttempt(req.text, req.language, req.model, req.purpose, req.intent, req.politeness,
                                svc, pa, pd, []);
    assert attempt == Run(Returned(ConfirmationResult(a, req.model)), [AnalysisCall(req.text, req.model)]);
    assert Route(req, svc, pa, pd) == attempt;
  }

  /** Confidence of at least 0.7, or none at all, leads to exactly one stage-2 call with the enhanced
      prompts built from the analysis; a stage-2 output answers the request with the analysis attached. */
  lemma ConfidentAnalysisRunsStage2(raw: RawTransformRequest, req: TransformRequest, svc: Service,
                                    pa: string -> Option<AnalysisObject>, pd: string -> Option<TransformData>,
                                    a: AnalysisObject)
    requires Admitted(raw, req) && IsSmart(req)
    requires svc(0).Output? && pa(OrEmptyObject(svc(0).text)) == Some(a)
    requires a.confidence.None? || a.confidence.value >= 0.7
    requires a.analysis.Some?
    requires svc(1).Output?
    ensures var r := TransformPost(Json(raw), svc, pa, pd);
      && r.status == 200
      && r.calls == [AnalysisCall(req.text, req.model),
                     EnhancedCall(req.text, a, a.analysis.value, req.language, req.model)]
      && r.reply.data.analysis == Some(a)
      && r.reply.data.needsConfirmation == Some(false)
      && r.reply.data.modelUsed == ModelName(req.model)
      && var d := DecodeData(svc(1).text, pd);
         && r.reply.data.revision == d.revision && r.reply.data.tips == d.tips
         && r.reply.data.subject == d.subject && r.reply.data.summary == d.summary
  {
    var d := DecodeData(svc(1).text, pd);
    var attempt := SmartAttempt(req.text, req.language, req.model, req.purpose, req.intent, req.politeness,
                                svc, pa, pd, []);
    var result := TransformResult(d.revision, d.tips, d.subject, d.summary, Some(a), Some(false), ModelName(req.model));
    assert attempt == Run(Returned(result), [AnalysisCall(req.text, req.model),
                                            EnhancedCall(req.text, a, a.analysis.value, req.language, req.model)]);
    assert Route(req, svc, pa, pd) == attempt;
  }

  /** A stage-2 exception does not fail the request: it is re-run as a direct transform with the
      caller's values or the defaults, the third and last call. */
  lemma Stage2FailureFallsBackToDirect(raw: RawTransformRequest, req: TransformRequest, svc: Service,
                                       pa: string -> Option<AnalysisObject>, pd: string -> Option<TransformData>,
                                       a: AnalysisObject)
    requires Admitted(raw, req) && IsSmart(req)
    requires svc(0).Output? && pa(OrEmptyObject(svc(0).text)) == Some(a)
    requires !BelowThreshold(a.confidence) && a.analysis.Some?
    requires svc(1).Throw?
    ensures var r := TransformPost(Json(raw), svc, pa, pd);
      var ctx := FallbackContext(req.language, req.purpose, req.intent, req.politeness);
      && |r.calls| == 3
      && r.calls[1] == EnhancedCall(req.text, a, a.analysis.value, req.language, req.model)
      && r.calls[2] == Call(req.model, PlainPrompts(req.text, ctx))
      && (r.status == 200 <==> svc(2).Output?)
  {
    var ctx := FallbackContext(req.language, req.purpose, req.intent, req.politeness);
    var attempt := SmartAttempt(req.text, req.language, req.model, req.purpose, req.intent, req.politeness,
                                svc, pa, pd, []);
    var stage2 := EnhancedCall(req.text, a, a.analysis.value, req.language, req.model);
    assert attempt == Run(Threw(svc(1).message), [AnalysisCall(req.text, req.model), stage2]);
    var run := SmartTransform(req.text, req.language, req.model, req.purpose, req.intent, req.politeness, svc, pa, pd);
    assert run == DirectTransform(req.text, ctx, req.model, svc, pd, attempt.calls);
    assert Route(req, svc, pa, pd) == run;
  }

  /** A stage-1 exception falls back to one direct call. */
  lemma Stage1FailureFallsBackToDirect(raw: RawTransformRequest, req: TransformRequest, svc: Service,
                                       pa: string -> Option<AnalysisObject>, pd: string -> Option<TransformData>)
    requires Admitted(raw, req) && IsSmart(req)
    requires svc(0).Throw?
    ensures var r := TransformPost(Json(raw), svc, pa, pd);
      var ctx := FallbackContext(req.language, req.purpose, req.intent, req.politeness);
      && r.calls == [AnalysisCall(req.text, req.model), Call(req.model, PlainPrompts(req.text, ctx))]
      && (r.status == 200 <==> svc(1).Output?)
  {
    var ctx := FallbackContext(req.language, req.purpose, req.intent, req.politeness);
    var attempt := SmartAttempt(req.text, req.language, req.model, req.purpose, req.intent, req.politeness,
                                svc, pa, pd, []);
    assert attempt == Run(Threw(svc(0).message), [AnalysisCall(req.text, req.model)]);
    assert Route(req, svc, pa, pd) == DirectTransform(req.text, ctx, req.model, svc, pd, attempt.calls);
  }

  /** An empty stage-1 output is read as `{}`: no confidence, so the gate passes, but no analysis
      details, so building the enhanced prompt throws and the request falls back to a direct call
      without any stage-2 call. */
  lemma EmptyAnalysisOutputFallsBackToDirect(raw: RawTransformRequest, req: TransformRequest, svc: Service,
                                             pa: string -> Option<AnalysisObject>, pd: string -> Option<TransformData>)
    requires Admitted(raw, req) && IsSmart(req)
    requires ParsesEmptyObject(pa, pd)
    requires svc(0) == Output("")
    ensures var r := TransformPost(Json(raw), svc, pa, pd);
      var ctx := FallbackContext(req.language, req.purpose, req.intent, req.politeness);
      && r.calls == [AnalysisCall(req.text, req.model), Call(req.model, PlainPrompts(req.text, ctx))]
  {
    var ctx := FallbackContext(req.language, req.purpose, req.intent, req.politeness);
    var attempt := SmartAttempt(req.text, req.language, req.model, req.purpose, req.intent, req.politeness,
                                svc, pa, pd, []);
    assert Stage1Analysis("", pa, req.purpose, req.intent, req.politeness) == EmptyAnalysis;
    assert attempt == Run(Threw(MissingAnalysisError), [AnalysisCall(req.text, req.model)]);
    assert Route(req, svc, pa, pd) == DirectTransform(req.text, ctx, req.model, svc, pd, attempt.calls);
  }

  /** The analysis-result schema is never applied: an analysis naming an unknown purpose with an
      out-of-range confidence still drives stage 2. This is one instance; the general statement is
      ConfidentAnalysisRunsStage2, which asks only for confidence at least 0.7 and puts no schema
      requirement on the parsed analysis. */
  lemma AnalysisSchemaNotEnforced(raw: RawTransformRequest, req: TransformRequest, svc: Service,
                                  pa: string -> Option<AnalysisObject>, pd: string -> Option<TransformData>,
                                  info: AnalysisInfo)
    requires Admitted(raw, req) && IsSmart(req)
    requires svc(0).Output?
    requires pa(OrEmptyObject(svc(0).text)) == Some(AnalysisObject(Some("poem"), None, None, Some(7.0), Some(info), None))
    requires svc(1).Output?
    ensures !ValidAnalysis(AnalysisObject(Some("poem"), None, None, Some(7.0), Some(info), None))
    ensures TransformPost(Json(raw), svc, pa, pd).status == 200
    ensures |TransformPost(Json(raw), svc, pa, pd).calls| == 2
  {
    var a := AnalysisObject(Some("poem"), None, None, Some(7.0), Some(info), None);
    assert ParsePurpose("poem").None?;
    var d := DecodeData(svc(1).text, pd);
    var attempt := SmartAttempt(req.text, req.language, req.model, req.purpose, req.intent, req.politeness,
                                svc, pa, pd, []);
    var result := TransformResult(d.revision, d.tips, d.subject, d.summary, Some(a), Some(false), ModelName(req.model));
    assert attempt == Run(Returned(result), [AnalysisCall(req.text, req.model),
                                            EnhancedCall(req.text, a, info, req.language, req.model)]);
    assert Route(req, svc, pa, pd) == attempt;
  }

  /** An output that does not parse is returned as the trimmed revision with empty tips, subject and summary. */
  lemma UnparsableOutputIsWrapped(raw: RawTransformRequest, req: TransformRequest, svc: Service,
                                  pa: string -> Option<AnalysisObject>, pd: string -> Option<TransformData>)
    requires Admitted(raw, req) && !IsSmart(req)
    requires svc(0).Output? && pd(OrEmptyObject(svc(0).text)).None?
    ensures var r := TransformPost(Json(raw), svc, pa, pd);
      && r.reply.data.revision == Some(Text.Trim(svc(0).text))
      && r.reply.data.tips == Some([]) && r.reply.data.subject == Some("") && r.reply.data.summary == Some("")
  {
  }

  /** A free caller asking for the premium model is refused with 403 before any call, whatever
      the service would have answered. */
  lemma PremiumModelNeedsPremiumFlag(text: string, svc: Service,
                                     pa: string -> Option<AnalysisObject>, pd: string -> Option<TransformData>)
    requires 1 <= |text| <= MaxTextLength
    ensures var raw := RawTransformRequest(Some(text), None, None, None, None, None, Some(true), Some("gpt-4o"), None);
      var r := TransformPost(Json(raw), svc, pa, pd);
      r.status == 403 && r.calls == [] && r.reply == Error("gpt-4o" + ForbiddenSuffix)
  {
  }
}

=== FILE: wrappers.dfy ===
/** Optional values: JavaScript's `undefined` for a field that is absent. */
module Wrappers {

  datatype Option<+T> = None | Some(value: T) {

    /** The value, or `default` when absent (the `??` operator). */
    function GetOr(default: T): T {
      match this
      case Some(v) => v
      case None => default
    }
  }
}
